=== FILE: README.md ===
# Traefik ingress relation protocols, modelled in Dafny

This project models the two relation-data protocols that the traefik-k8s charm library offers to
the applications it proxies:

- **ingress-per-unit** (`lib/charms/traefik_k8s/v1/ingress_per_unit.py`): every requirer unit
  writes its `model`, `name`, `host` and `port` into its own unit databag; the provider (the
  proxy) reads those records, decides whether the relation is ready, checks that all units agree
  on their model, and as leader publishes a YAML mapping `unit name -> {url}` under `ingress` in
  its application databag. The requirer projects that mapping to `urls`/`url`, diffs it against
  the snapshot it stored in the previous hook and emits `ready`/`revoked` events according to its
  `listen_to` mode.
- **ingress (per application)** (`lib/charms/traefik_k8s/v0/ingress.py`): the requirer leader
  writes one JSON record `{model, name, host, port}` under `data` in its application databag (the
  three names may not contain spaces); the provider is meant to become ready once that record is
  valid and to publish one `{url}` record under its own `data` key, and the requirer reports a new
  URL once per change. As written, these steps do not connect (see "Findings"). The model follows
  the code and, beside it, gives the evidently intended definitions with their round trips proved.

A relation is a `Databag.Relation` object whose four databags the handlers read and update in
place. A databag value is abstracted to what the YAML/JSON reader makes of the stored string
(`Plain` text, an `Encoded` mapping, or `Malformed` text). As the runtime does, a databag
refuses a value that is not a string, and refuses a non-leader's write to its application's
databag, with RelationDataError; deleting an absent key is no error. Handlers are methods on the
`Requirer` classes (whose stored snapshot is a field) or module-level methods taking the
relation; events are returned as sequences; leadership, the FQDN and the module-wide validation
switch are parameters. The runtime's set of remote units is iterated in an unspecified order,
and the contracts hold for every order.

Modules: `Common` (Option/Result and the Python exceptions), `Decimal` (`int()`/`str()` on
ports), `Databag` (relations and databag values), `IngressPerUnitSchema`,
`IngressPerUnitProvider`, `IngressPerUnitRequirer`, `IngressPerUnitProtocol` (both ends together),
and the same four for the per-application protocol (`IngressPerAppSchema`,
`IngressPerAppProvider`, `IngressPerAppRequirer`, `IngressPerAppProtocol`).

Behaviours of the code that the model reproduces on purpose:

- The per-unit provider's `validate` returns `False` on success. Its `expected_model` is reset
  while it is falsy, so an empty model does not count as "seen".
- `_provider_app_data` (per unit) reads the key `data`, while `publish_url` writes `ingress`.
  Published URLs therefore never show up in `proxied_endpoints`.
- The per-unit requirer's `_auto_data = host, port if port else None` is always a non-empty pair.
  So the coordinates are republished in every handled hook. A falsy port is written as the text
  `None`. The provider's `int()` on that text raises ValueError. `_requirer_units_data` does not
  catch ValueError, so the whole relation then reads as not ready.
- The per-application requirer keeps its stored `current_url` when the relation breaks.
- The per-application provider's `wipe_ingress_data` does not check leadership, so on a
  non-leader the databag refuses the deletion.

## Model

| member | source | states |
|---|---|---|
| Decimal.ParseInt | lib/charms/traefik_k8s/v1/ingress_per_unit.py:437 | `int()` of a port text succeeds exactly on an optionally signed, non-empty run of decimal digits, with the sign respected |
| Decimal.ShowInt | lib/charms/traefik_k8s/v1/ingress_per_unit.py:713 | `str()` of an integer is a decimal text with no leading `+` |
| Decimal.ParseShowRoundTrip | lib/charms/traefik_k8s/v1/ingress_per_unit.py:713 | `int(str(n)) == n` for every integer |
| Decimal.NoneIsNotDecimal | lib/charms/traefik_k8s/v1/ingress_per_unit.py:713 | `int("None")` raises: the text `str(None)` is not a port |
| Databag.Load | lib/charms/traefik_k8s/v1/ingress_per_unit.py:738 | the reader yields a mapping exactly for a mapping's encoding, that mapping itself, and fails, with a parse error, exactly on malformed text |
| IngressPerUnitSchema.UrlEntry | lib/charms/traefik_k8s/v1/ingress_per_unit.py:382 | the entry written for a unit satisfies the entry schema and carries the given URL |
| IngressPerUnitSchema.ReadIngress | lib/charms/traefik_k8s/v1/ingress_per_unit.py:365-366 | an absent or empty `ingress` value reads as `{}`; it fails (ParseError) exactly when the stored text is malformed; a published mapping reads as itself and a non-empty plain string as that string; the result is a mapping exactly when nothing or a mapping was published |
| IngressPerUnitSchema.PortText | lib/charms/traefik_k8s/v1/ingress_per_unit.py:713 | the port text parses back to the port, and to nothing when the port is None |
| IngressPerUnitSchema.Coordinates | lib/charms/traefik_k8s/v1/ingress_per_unit.py:709-714 | the requirer's record has exactly the four required keys and so passes the unit schema |
| IngressPerUnitProvider.GetRequirerUnitData | lib/charms/traefik_k8s/v1/ingress_per_unit.py:425-438 | a KeyError exactly when the bag or one of the four keys is missing; otherwise a ValueError exactly when the port is not decimal; on success the four values from the bag with the port parsed |
| IngressPerUnitProvider.UnitSchemaCannotFail | lib/charms/traefik_k8s/v1/ingress_per_unit.py:433-434 | once the four keys are fetched the unit schema check cannot fail, so the DataValidationError handlers are dead |
| IngressPerUnitProvider.UnitsData | lib/charms/traefik_k8s/v1/ingress_per_unit.py:397-423 | `{}` for an unnamed remote application; otherwise only ValueError can escape, and every kept unit is a relation unit with its fetched record |
| IngressPerUnitProvider.RequirerUnitsData | lib/charms/traefik_k8s/v1/ingress_per_unit.py:397-423 | the loop over the remote units computes UnitsData in any iteration order |
| IngressPerUnitProvider.UnitsDataKeys | lib/charms/traefik_k8s/v1/ingress_per_unit.py:409-422 | the kept units are exactly the relation units whose record could be fetched, so the result is non-empty iff some unit shared a complete record |
| IngressPerUnitProvider.IsReadyRelation | lib/charms/traefik_k8s/v1/ingress_per_unit.py:298-318 | ready iff the remote application is named, some unit shared a complete record, and no complete record has a non-decimal port |
| IngressPerUnitProvider.IsReady | lib/charms/traefik_k8s/v1/ingress_per_unit.py:304-305 | with no relation given: ready iff some relation is ready |
| IngressPerUnitProvider.IsUnitReady | lib/charms/traefik_k8s/v1/ingress_per_unit.py:341-352 | AssertionError for a unit outside the relation; true iff its record can be fetched, false iff a key is missing, ValueError escapes |
| IngressPerUnitProvider.Validate | lib/charms/traefik_k8s/v1/ingress_per_unit.py:320-339 | RelationDataMismatchError when two records name different non-empty models; `False` when all records agree; errors of the unit data escape; no relation is an AttributeError |
| IngressPerUnitProvider.PlanPublish | lib/charms/traefik_k8s/v1/ingress_per_unit.py:365-387 | a reading error is raised; under validation a corrupted mapping is refused and a valid one is written back with `unit -> {url}` added, valid again; without validation any mapping is written with the entry added and a scalar is a TypeError |
| IngressPerUnitProvider.InsertKeepsIngressValid | lib/charms/traefik_k8s/v1/ingress_per_unit.py:384-386 | adding a well-formed entry keeps a valid mapping valid, so the second validation never fails |
| IngressPerUnitProvider.PublishUrl | lib/charms/traefik_k8s/v1/ingress_per_unit.py:358-387 | non-leaders fail the assertion and change nothing; a corrupted mapping is left as it is; otherwise only `ingress` changes, to the old mapping plus `unit -> {url}` |
| IngressPerUnitProvider.WipeIngressData | lib/charms/traefik_k8s/v1/ingress_per_unit.py:389-395 | non-leaders fail the assertion and change nothing; the leader removes `ingress`, and only it, whether or not it was there |
| IngressPerUnitProvider.ProviderAppData | lib/charms/traefik_k8s/v1/ingress_per_unit.py:440-459 | `{}` for an unnamed remote application, a non-leader, or a missing or empty `data`; the leader's read returns a parse error as it is, and under validation yields the `ingress` mapping of a schema-valid document and a validation error for any other; every returned entry is then a URL record |
| IngressPerUnitProvider.PublishedUrlsNotProxied | lib/charms/traefik_k8s/v1/ingress_per_unit.py:387 | whatever is written under `ingress` leaves `_provider_app_data` unchanged |
| IngressPerUnitProvider.Proxied | lib/charms/traefik_k8s/v1/ingress_per_unit.py:481-487 | under validation every aggregated entry is a URL record |
| IngressPerUnitProvider.ProxiedEndpoints | lib/charms/traefik_k8s/v1/ingress_per_unit.py:461-487 | the loop over the relations computes Proxied, the first error escaping |
| IngressPerUnitProvider.ProxiedErrorSticks | lib/charms/traefik_k8s/v1/ingress_per_unit.py:483-485 | an error from one relation is the result of the whole aggregation |
| IngressPerUnitProvider.ProxiedLastWins | lib/charms/traefik_k8s/v1/ingress_per_unit.py:483-485 | a unit appears iff some relation publishes it, with the entry of the last relation that does |
| IngressPerUnitRequirer.UrlsOf | lib/charms/traefik_k8s/v1/ingress_per_unit.py:733-742 | an absent or empty value gives `{}`; the keys are those of the published mapping and each value is that entry's `url`; under validation it succeeds iff the mapping is valid |
| IngressPerUnitRequirer.Changed | lib/charms/traefik_k8s/v1/ingress_per_unit.py:650 | changed units all have a current URL |
| IngressPerUnitRequirer.DiffPartition | lib/charms/traefik_k8s/v1/ingress_per_unit.py:649-650 | removed, changed and unchanged units are pairwise disjoint and together cover both snapshots |
| IngressPerUnitRequirer.DiffOfSameSnapshot | lib/charms/traefik_k8s/v1/ingress_per_unit.py:649-650 | diffing a snapshot against itself finds nothing removed and nothing changed |
| IngressPerUnitRequirer.ForUnitEventsSpec | lib/charms/traefik_k8s/v1/ingress_per_unit.py:653-659 | at most one per-unit event; `ready_for_unit(url)` iff the mode is not all-units and this unit's URL is new or different; `revoked_for_unit` iff the mode is not all-units and this unit's URL disappeared |
| IngressPerUnitRequirer.RevokedTimesCount | lib/charms/traefik_k8s/v1/ingress_per_unit.py:666-667 | n revocations contain `revoked` exactly n times and nothing else |
| IngressPerUnitRequirer.BroadcastEventsSpec | lib/charms/traefik_k8s/v1/ingress_per_unit.py:661-667 | `ready(unit, url)` occurs once exactly for each changed unit with its current URL, `revoked` once per removed unit, only in all-units and both modes |
| IngressPerUnitRequirer.ReadySetCount | lib/charms/traefik_k8s/v1/ingress_per_unit.py:662-664 | each changed unit's `ready` event occurs exactly once, and no other event occurs |
| IngressPerUnitRequirer.ReadySetAdd | lib/charms/traefik_k8s/v1/ingress_per_unit.py:662-664 | one more changed unit adds exactly its own `ready` event |
| IngressPerUnitRequirer.EmitReady | lib/charms/traefik_k8s/v1/ingress_per_unit.py:662-664 | the loop over changed units emits one `ready` per unit, in any order |
| IngressPerUnitRequirer.EmitRevoked | lib/charms/traefik_k8s/v1/ingress_per_unit.py:666-667 | the loop over removed units emits one `revoked` per unit |
| IngressPerUnitRequirer.EmitBroadcast | lib/charms/traefik_k8s/v1/ingress_per_unit.py:661-667 | the broadcast events are BroadcastEvents, all `ready` events before the `revoked` ones |
| IngressPerUnitRequirer.EmitEvents | lib/charms/traefik_k8s/v1/ingress_per_unit.py:649-667 | per-unit events first, then the broadcast events, `revoked` events last |
| IngressPerUnitRequirer.ReadiesBeforeRevokes | lib/charms/traefik_k8s/v1/ingress_per_unit.py:662-667 | in ready events followed by revocations, nothing but `revoked` follows a `revoked` |
| IngressPerUnitRequirer.NoEventsWithoutChange | lib/charms/traefik_k8s/v1/ingress_per_unit.py:646-669 | handling the stored snapshot again emits no event |
| IngressPerUnitRequirer.Requirer.constructor | lib/charms/traefik_k8s/v1/ingress_per_unit.py:593-632 | the stored snapshot is kept; the auto-data port is the given one when truthy and None otherwise |
| IngressPerUnitRequirer.Requirer.Urls | lib/charms/traefik_k8s/v1/ingress_per_unit.py:718-742 | `{}` without a relation or with an empty remote name, AttributeError without a remote application; a non-empty result comes from the remote application's published `ingress` mapping, with the same unit names as keys and each unit's `url` as value; under validation it succeeds iff that value reads and is valid |
| IngressPerUnitRequirer.Requirer.Url | lib/charms/traefik_k8s/v1/ingress_per_unit.py:744-752 | this unit's entry of `urls` when present, None otherwise, errors of `urls` propagated |
| IngressPerUnitRequirer.Requirer.IsReady | lib/charms/traefik_k8s/v1/ingress_per_unit.py:686-696 | true iff the relation's remote application is named and the published mapping gives this unit a non-empty URL; an error reading the mapping of a named relation is returned, and only such an error |
| IngressPerUnitRequirer.Requirer.ProvideIngressRequirements | lib/charms/traefik_k8s/v1/ingress_per_unit.py:698-716 | without a relation an AttributeError; otherwise the unit bag gains exactly the four coordinates, the host defaulting to the FQDN, and nothing else changes |
| IngressPerUnitRequirer.Requirer.PublishAutoData | lib/charms/traefik_k8s/v1/ingress_per_unit.py:676-679 | the coordinates are published on every call, with the auto-data host and port |
| IngressPerUnitRequirer.Requirer.HandleRelation | lib/charms/traefik_k8s/v1/ingress_per_unit.py:643-670 | a reading error emits, stores and writes nothing; otherwise the events are the diff's against the stored snapshot, the new mapping is stored, an unchanged mapping emits nothing, and the coordinates are republished |
| IngressPerUnitProtocol.PublishedUrlReadBack | lib/charms/traefik_k8s/v1/ingress_per_unit.py:382-387 | after `publish_url` the requirer's `urls` is the previous mapping with the unit's new URL |
| IngressPerUnitProtocol.CoordinatesReadBack | lib/charms/traefik_k8s/v1/ingress_per_unit.py:709-716 | the record a requirer unit writes is exactly what the provider fetches for it, port included |
| IngressPerUnitProtocol.NonePortSpoilsRelation | lib/charms/traefik_k8s/v1/ingress_per_unit.py:631 | coordinates written with a falsy port make the provider's unit data raise ValueError and the relation not ready |
| IngressPerAppSchema.CheckName | lib/charms/traefik_k8s/v0/ingress.py:98-102 | the validator as written rejects a name with a space and otherwise yields None for the field |
| IngressPerAppSchema.CheckNameIntended | lib/charms/traefik_k8s/v0/ingress.py:98-102 | the intended validator rejects a name with a space and otherwise keeps the name |
| IngressPerAppSchema.MakeRequirerData | lib/charms/traefik_k8s/v0/ingress.py:92-102 | the record is built iff none of model, name and host contains a space, otherwise a validation error; as written its three names are then None |
| IngressPerAppSchema.MakeRequirerDataIntended | lib/charms/traefik_k8s/v0/ingress.py:92-102 | the record is built under the same condition and keeps the given names and port |
| IngressPerAppSchema.ValidatorDropsNames | lib/charms/traefik_k8s/v0/ingress.py:99-102 | for every accepted input the record as written has lost all three names, unlike the intended one |
| IngressPerAppSchema.RecordDoc | lib/charms/traefik_k8s/v0/ingress.py:392-394 | the written record has exactly the four fields, the port as an integer |
| IngressPerAppSchema.NameField | lib/charms/traefik_k8s/v0/ingress.py:99-102 | a name field is accepted iff it is a string without spaces, and then kept |
| IngressPerAppSchema.ParseRecord | lib/charms/traefik_k8s/v0/ingress.py:214 | the intended read accepts exactly a document with three space-free string names and an integer port, and then agrees with it on all four fields |
| IngressPerAppSchema.ParseRecordDoc | lib/charms/traefik_k8s/v0/ingress.py:392-394 | with the intended definitions, a valid record written by the requirer parses back to itself |
| IngressPerAppSchema.ParseRejectsSpaces | lib/charms/traefik_k8s/v0/ingress.py:99-102 | a host containing a space is always rejected |
| IngressPerAppSchema.UrlDoc | lib/charms/traefik_k8s/v0/ingress.py:84-85 | the URL record holds only the URL |
| IngressPerAppSchema.ParseUrl | lib/charms/traefik_k8s/v0/ingress.py:417-418 | the requirer reads a URL iff the stored text is a record with a string `url`; otherwise a validation error |
| IngressPerAppSchema.ParseUrlDoc | lib/charms/traefik_k8s/v0/ingress.py:417-418 | the text of a URL record reads back as its URL |
| IngressPerAppSchema.ProviderDataDoc | lib/charms/traefik_k8s/v0/ingress.py:88-89 | the wrapper holds only the URL record, under `ingress` |
| IngressPerAppSchema.WrapperTextNotRead | lib/charms/traefik_k8s/v0/ingress.py:417-418 | the requirer's read rejects the wrapper's text, which has no top-level `url` |
| IngressPerAppProvider.ShareVersionInfo | lib/charms/traefik_k8s/v0/ingress.py:176-187 | the leader sets `_supported_versions` to `- v1`; a non-leader changes nothing |
| IngressPerAppProvider.GetRequirerData | lib/charms/traefik_k8s/v0/ingress.py:202-215 | nothing for an unnamed remote application or an absent or empty `data`; any other stored value is a validation error, so no record is ever returned |
| IngressPerAppProvider.IsReadyRelation | lib/charms/traefik_k8s/v0/ingress.py:221-230 | no relation is ever ready |
| IngressPerAppProvider.IsReady | lib/charms/traefik_k8s/v0/ingress.py:223-224 | with no relation given: ready iff some relation is ready |
| IngressPerAppProvider.ProviderNeverReady | lib/charms/traefik_k8s/v0/ingress.py:221-230 | the provider is not ready for any list of relations |
| IngressPerAppProvider.GetRequirerDataIntended | lib/charms/traefik_k8s/v0/ingress.py:202-215 | with the intended read: nothing for an unnamed application or absent or empty `data`; otherwise the parsed record, or a validation error exactly when parsing fails |
| IngressPerAppProvider.IsReadyRelationIntended | lib/charms/traefik_k8s/v0/ingress.py:221-230 | with the intended read: ready iff the remote application is named and its non-empty `data` parses as a valid record |
| IngressPerAppProvider.HandleRelation | lib/charms/traefik_k8s/v0/ingress.py:189-193 | at most one event, `data_provided` iff the relation is ready |
| IngressPerAppProvider.HandleRelationBroken | lib/charms/traefik_k8s/v0/ingress.py:195-196 | exactly one `data_removed` |
| IngressPerAppProvider.WipeIngressData | lib/charms/traefik_k8s/v0/ingress.py:198-200 | the leader removes `data`, and only it, whether or not it was there; on a non-leader the databag refuses and nothing changes |
| IngressPerAppProvider.PublishUrl | lib/charms/traefik_k8s/v0/ingress.py:247-250 | building the `ProviderData` wrapper from an object where its field wants JSON text is a validation error, so the call fails and nothing changes |
| IngressPerAppProvider.PublishUrlIntended | lib/charms/traefik_k8s/v0/ingress.py:247-250 | the leader stores the URL record's text under `data` and keeps every other key; a non-leader is refused |
| IngressPerAppProvider.ProviderAppData | lib/charms/traefik_k8s/v0/ingress.py:232-245 | `{}` for an unnamed remote application, None for a non-leader; the leader gets KeyError without `data` and a validation error otherwise, never a URL |
| IngressPerAppProvider.ProviderAppDataIntended | lib/charms/traefik_k8s/v0/ingress.py:232-245 | as above, but the leader reads a stored URL record as its URL |
| IngressPerAppProvider.PublishedUrlReadBack | lib/charms/traefik_k8s/v0/ingress.py:243-250 | the intended read gives back the URL the intended publish stored; the read as written rejects it |
| IngressPerAppProvider.WipedUrlUnreadable | lib/charms/traefik_k8s/v0/ingress.py:198-200 | after a wipe the leader's read raises KeyError |
| IngressPerAppProvider.Proxied | lib/charms/traefik_k8s/v0/ingress.py:268-274 | on success every relation has a remote application and the keys are exactly their names |
| IngressPerAppProvider.ProxiedEndpoints | lib/charms/traefik_k8s/v0/ingress.py:253-274 | the loop over the relations computes Proxied, the first error escaping |
| IngressPerAppProvider.ProxiedErrorSticks | lib/charms/traefik_k8s/v0/ingress.py:270-272 | an error from one relation is the result of the whole aggregation |
| IngressPerAppProvider.ProxiedLastWins | lib/charms/traefik_k8s/v0/ingress.py:270-272 | the entry under an application name is that of the last relation with that name |
| IngressPerAppRequirer.Requirer.constructor | lib/charms/traefik_k8s/v0/ingress.py:300-336 | auto data is kept exactly when the port is truthy; the stored URL is kept |
| IngressPerAppRequirer.Requirer.Url | lib/charms/traefik_k8s/v0/ingress.py:401-418 | None without a relation or without published data; KeyError without a remote application; otherwise the published URL, or a validation error exactly when it cannot be read |
| IngressPerAppRequirer.Requirer.IsReady | lib/charms/traefik_k8s/v0/ingress.py:353-359 | true iff a non-empty URL is published; validation errors mean false; only the KeyError escapes |
| IngressPerAppRequirer.Requirer.EmitIngressReadyEvent | lib/charms/traefik_k8s/v0/ingress.py:361-366 | `ready` iff the URL differs from the stored one, which is then replaced; an unchanged URL emits nothing |
| IngressPerAppRequirer.Requirer.ProvideIngressRequirements | lib/charms/traefik_k8s/v0/ingress.py:373-394 | AssertionError for a non-leader; validation error for a space in a name; AttributeError without a relation; otherwise only `data` changes, to the record with the host defaulting to the FQDN |
| IngressPerAppRequirer.Requirer.AutoPublishOutcome | lib/charms/traefik_k8s/v0/ingress.py:368-394 | nothing to do without auto data or off the leader; a validation error iff the auto data gives a name with a space; otherwise success iff there is a relation, an AttributeError if not |
| IngressPerAppRequirer.Requirer.PublishAutoData | lib/charms/traefik_k8s/v0/ingress.py:368-371 | the outcome is AutoPublishOutcome; nothing is written without auto data, off the leader or on failure; on success only `data` changes, to the auto data's record with the host defaulting to the FQDN |
| IngressPerAppRequirer.Requirer.HandleRelation | lib/charms/traefik_k8s/v0/ingress.py:338-343 | a failed publish is the outcome, else the KeyError readiness raises, else success; the application bag is what PublishAutoData leaves and the other three bags are unchanged; at most one `ready`, only if the requirer was ready and the URL differs from the stored one, and always then on success; on success while ready the stored URL is the current one, and not ready leaves it alone |
| IngressPerAppRequirer.Requirer.HandleRelationBroken | lib/charms/traefik_k8s/v0/ingress.py:345-346 | exactly one `revoked`; the stored URL is not touched |
| IngressPerAppProtocol.RecordNeverReachesProvider | lib/charms/traefik_k8s/v0/ingress.py:214 | as written, the record a requirer leader publishes is a validation error for the provider, which is not ready; even the intended read rejects it, its names being null |
| IngressPerAppProtocol.RecordReachesProvider | lib/charms/traefik_k8s/v0/ingress.py:392-394 | with the intended definitions, the record a requirer leader publishes is what the provider fetches, so the provider becomes ready |
| IngressPerAppProtocol.UrlReachesRequirer | lib/charms/traefik_k8s/v0/ingress.py:247-250 | with the intended publish, the provider reads back the URL and every requirer unit reads it too, ready iff it is non-empty |

## Findings

| source | as written | input that shows it | evidently intended | confidence | as-written member | corrected member |
|---|---|---|---|---|---|---|
| lib/charms/traefik_k8s/v0/ingress.py:214 | `RequirerData.parse_obj` is given the stored JSON text; pydantic first turns its argument into a dict, which a string is not, so it raises a ValidationError | any record a requirer leader publishes, for example the text of `{"model": "m", "name": "app", "host": "h", "port": 80}` | parse the text as JSON (`parse_raw`), so the provider fetches the record and becomes ready | not executed | IngressPerAppProtocol.RecordNeverReachesProvider | IngressPerAppProtocol.RecordReachesProvider |
| lib/charms/traefik_k8s/v0/ingress.py:99-102 | `name_cannot_contain_spaces` returns nothing for a valid name, so pydantic sets `model`, `name` and `host` to None and `data.json()` writes them as `null` | model `m`, name `app`, host `h`, port 80 gives a record whose three names are None | return the validated name | not executed | IngressPerAppSchema.ValidatorDropsNames | IngressPerAppSchema.ParseRecordDoc |
| lib/charms/traefik_k8s/v0/ingress.py:247-250 | `publish_url` builds `ProviderData(ingress=ingress)` from a `ProviderIngressData` object, where the `ingress` field is typed as JSON text, so pydantic raises a ValidationError and nothing is published (the databag, which takes only strings, would refuse the wrapper anyway); the provider's own read (line 243) and the requirer's (lines 417-418) expect different shapes in any case | any URL, for example `http://proxy/m-app` | store the text of `ProviderIngressData(url=url)`, which the requirer reads as it is | not executed | IngressPerAppProvider.PublishUrl | IngressPerAppProtocol.UrlReachesRequirer |

## Left out

- Framework wiring is not modelled: observer registration, the `relations` and `relation` properties, and the `_IPUEvent` snapshot/restore code. Handlers take the relation directly. The requirers take the first relation or null. The provider aggregations take the list of relations.
- Upgrade and leader-elected handlers are not modelled separately. For each relation they only call the `_publish_auto_data` that is modelled.
- Events do not carry their relation or the `Unit` object. `ready` carries the unit's name.
- Logging is left out, and so is the jsonschema import that sets the validation switch. The switch is the `validation` parameter.
- `socket.getfqdn()` is the `fqdn` parameter. Leadership is the `isLeader` parameter. The model name and this unit's or application's name are constructor arguments.
- YAML/JSON text is not modelled character by character. A stored value is a plain string, the encoding of a mapping, or text the reader rejects. A `Plain` text is read as a string scalar, never as a number or list.
- Decimal.ParseInt: Python `int()` also accepts surrounding whitespace, digit-separating underscores and non-ASCII decimal digits. The model accepts only an optional sign followed by ASCII digits.
- IngressPerUnitRequirer.UrlsOf: with validation off, the code returns what the comprehension at lines 741-742 yields: entries whose `url` is not a string (a number, `null`) come back as they are, and other shapes fail with AttributeError, TypeError or KeyError. The model's URLs are strings, so it returns TypeError for every mapping that breaks the entry schema.
- IngressPerUnitProvider.PlanPublish: with validation off, a scalar document fails with TypeError. Any mapping is accepted as it is.
- IngressPerUnitProvider.ProviderAppData: with validation off, `_provider_app_data` (lines 451-457) returns the `ingress` value of any mapping document, whatever it is; a failure only comes later, at `results.update` in `proxied_endpoints` (line 485): ValueError for a string, TypeError for a number or `null`, while a list of pairs is accepted. The model returns TypeError from ProviderAppData itself for every `ingress` value that is not a mapping.
- IngressPerUnitProvider.Validate: when an empty model is mixed with non-empty ones, whether the mismatch is raised depends on the iteration order. The contract states both the conflicting and the agreeing cases but not this order-dependent one.
- IngressPerAppSchema.ParseRecord: the field types of the per-application models exist only as `# type:` comments, which pydantic does not read. The model enforces them as the schema (`str`, `int`, JSON text of a URL record). What pydantic does with un-annotated `Field()` attributes is not modelled, nor are its coercions such as `"80"` to `80`.
- IngressPerAppSchema.MakeRequirerData: the names are checked as strings per their type comments; the un-annotated `Field()` behaviour is not modelled.
- IngressPerAppSchema.ParseUrl: `ingress` is read as JSON text of a `{url: str}` record per its type comment; the un-annotated `Field()` behaviour is not modelled.
- IngressPerAppRequirer.Requirer.Url: reads through ParseUrl, so the same type-comment reading applies.
- IngressPerAppProvider.PublishUrl: the ValidationError follows from the same type-comment reading of `ingress`; the un-annotated `Field()` behaviour is not modelled.
- IngressPerUnitRequirer.Requirer.ProvideIngressRequirements: the runtime deletes a key that is assigned the empty string. The model stores the empty string, which only an empty FQDN or model name could produce.
- The example charms at the top of both files are not modelled. Neither are `RelationPermissionError` and the unused event classes, which no core operation raises or emits.

=== FILE: common.dfy ===
/** Failure-carrying values shared by both ingress libraries.
    Python exceptions become `Err`/`Fail` values naming the exception class. */
module Common {

  datatype Option<+T> = None | Some(value: T) {
    function GetOr(default: T): T {
      match this
      case Some(v) => v
      case None => default
    }
  }

  /** The exceptions the two libraries raise or let escape. */
  datatype Error =
    | KeyError          // a missing databag key or relation entry
    | ValueError        // `int()` of a non-decimal port
    | ParseError        // the YAML reader rejects the stored text
    | ValidationError   // jsonschema / pydantic validation failure
    | AssertionError    // a leader-only operation called on a non-leader
    | AttributeError    // attribute access on a missing relation or application
    | TypeError         // a non-mapping document used as a mapping
    | MismatchError     // RelationDataMismatchError: remote units disagree on `model`
    | RelationDataError // the databag refuses a write: a value that is not a string, or a
                        // non-leader writing its application's databag

  datatype Result<+T> = Ok(value: T) | Err(error: Error)

  /** What a Python procedure returning None ends with. */
  datatype Outcome = Pass | Fail(error: Error)
}

=== FILE: databag.dfy ===
/** The relation data the host runtime keeps for one relation, seen from one unit.
    A databag value is a string; `Value` records what the YAML/JSON reader makes of it, which
    is all the two libraries ever look at. The runtime refuses any other value, and refuses a
    write to an application's databag from a unit that is not the leader, with
    RelationDataError. */
module Databag {
  import opened Common

  /** A decoded YAML/JSON document. `Null` is JSON `null` (Python None); `Other` is any other
      scalar or list that is neither a string nor an integer. */
  datatype Node = Str(s: string) | Int(i: int) | Map(fields: map<string, Node>) | Null | Other

  /** A databag value.
      - `Plain(s)`: the text `s`; the reader turns it into a scalar, never a mapping.
      - `Encoded(doc)`: the YAML/JSON text that the writer produced for the mapping `doc`
        (so reading it back yields `doc`).
      - `Malformed`: non-empty text that the YAML/JSON reader rejects. */
  datatype Value = Plain(s: string) | Encoded(doc: map<string, Node>) | Malformed

  /** An application databag. */
  type Bag = map<string, Value>

  /** A unit databag: only plain strings are ever written there. */
  type UnitBag = map<string, string>

  /** Python truthiness of the stored value: only the empty string is falsy. */
  predicate Truthy(v: Value) {
    !(v.Plain? && v.s == "")
  }

  /** `bag.get(key)`. */
  function Get(bag: Bag, key: string): Option<Value> {
    if key in bag then Some(bag[key]) else None
  }

  /** `yaml.safe_load(raw)` of a non-empty stored value. */
  function Load(v: Value): (r: Result<Node>)
    ensures r.Ok? ==> (r.value.Map? <==> v.Encoded?)
    ensures r.Ok? && v.Encoded? ==> r.value.fields == v.doc
    ensures r.Err? <==> v.Malformed?
    ensures r.Err? ==> r.error == ParseError
  {
    match v
    case Plain(s) => Ok(Str(s))
    case Encoded(doc) => Ok(Map(doc))
    case Malformed => Err(ParseError)
  }

  /** `relation.app` exists and has a non-empty name (the name is empty during relation-broken). */
  predicate Named(app: Option<string>) {
    app.Some? && app.value != ""
  }

  /** `if not host: host = socket.getfqdn()`, with the FQDN passed in. */
  function HostOr(host: Option<string>, fqdn: string): (h: string)
    ensures host.Some? && host.value != "" ==> h == host.value
    ensures host.None? || host.value == "" ==> h == fqdn
  {
    if host.Some? && host.value != "" then host.value else fqdn
  }

  /** One relation: the remote application, the remote units and the four databags
      this unit can see. Handlers read and write the bags in place. */
  class Relation {
    const remoteApp: Option<string>
    const units: set<string>
    var remoteUnitBags: map<string, UnitBag>
    var remoteAppBag: Bag
    var localUnitBag: UnitBag
    var localAppBag: Bag

    constructor (remoteApp: Option<string>, units: set<string>, remoteUnitBags: map<string, UnitBag>,
                 remoteAppBag: Bag, localUnitBag: UnitBag, localAppBag: Bag)
      ensures this.remoteApp == remoteApp && this.units == units
      ensures this.remoteUnitBags == remoteUnitBags && this.remoteAppBag == remoteAppBag
      ensures this.localUnitBag == localUnitBag && this.localAppBag == localAppBag
    {
      this.remoteApp := remoteApp;
      this.units := units;
      this.remoteUnitBags := remoteUnitBags;
      this.remoteAppBag := remoteAppBag;
      this.localUnitBag := localUnitBag;
      this.localAppBag := localAppBag;
    }
  }
}

=== FILE: decimal.dfy ===
/** Decimal text of integers: Python's `str(int)` and the part of `int(str)`
    the relation protocol relies on (an optional sign followed by ASCII digits). */
module Decimal {
  import opened Common

  predicate IsDigit(c: char) {
    '0' <= c <= '9'
  }

  predicate AllDigits(s: string) {
    forall i :: 0 <= i < |s| ==> IsDigit(s[i])
  }

  function DigitValue(c: char): (d: nat)
    requires IsDigit(c)
    ensures d < 10
  {
    c as int - '0' as int
  }

  function DigitChar(d: nat): (c: char)
    requires d < 10
    ensures IsDigit(c) && DigitValue(c) == d
  {
    ('0' as int + d) as char
  }

  /** The value of a string of digits, most significant first. */
  function DigitsValue(s: string): nat
    requires AllDigits(s)
    decreases |s|
  {
    if s == [] then 0 else DigitsValue(s[..|s| - 1]) * 10 + DigitValue(s[|s| - 1])
  }

  /** A decimal integer literal as `int()` reads it: an optional sign, then one or more digits. */
  predicate IsDecimal(s: string) {
    if |s| > 0 && (s[0] == '-' || s[0] == '+') then |s| > 1 && AllDigits(s[1..])
    else |s| > 0 && AllDigits(s)
  }

  /** `int(s)` for a base-10 string: `None` stands for the ValueError it raises. */
  function ParseInt(s: string): (r: Option<int>)
    ensures r.Some? <==> IsDecimal(s)
    ensures r.Some? && s[0] == '-' ==> r.value <= 0
    ensures r.Some? && s[0] != '-' ==> r.value >= 0
  {
    if |s| > 0 && (s[0] == '-' || s[0] == '+') then
      if |s| > 1 && AllDigits(s[1..]) then
        Some(if s[0] == '-' then -(DigitsValue(s[1..]) as int) else DigitsValue(s[1..]) as int)
      else None
    else if |s| > 0 && AllDigits(s) then Some(DigitsValue(s))
    else None
  }

  /** `str(n)` for a natural number: its digits without leading zeros. */
  function ShowNat(n: nat): (s: string)
    ensures |s| > 0 && AllDigits(s)
    ensures s[0] == '0' ==> n == 0
    decreases n
  {
    if n < 10 then [DigitChar(n)] else ShowNat(n / 10) + [DigitChar(n % 10)]
  }

  /** `str(n)` for any integer. */
  function ShowInt(n: int): (s: string)
    ensures IsDecimal(s)
    ensures s[0] != '+'
  {
    if n < 0 then "-" + ShowNat(-n) else ShowNat(n)
  }

  lemma {:induction false} DigitsOfShowNat(n: nat)
    ensures DigitsValue(ShowNat(n)) == n
    decreases n
  {
    if n >= 10 {
      var prefix := ShowNat(n / 10);
      var s := prefix + [DigitChar(n % 10)];
      assert s[..|s| - 1] == prefix;
      DigitsOfShowNat(n / 10);
    }
  }

  /** What `str(port)` publishes, `int()` reads back unchanged. */
  lemma ParseShowRoundTrip(n: int)
    ensures ParseInt(ShowInt(n)) == Some(n)
  {
    DigitsOfShowNat(if n < 0 then -n else n);
    if n < 0 {
      assert ShowInt(n)[1..] == ShowNat(-n);
    }
  }

  /** `str(None)` is not an integer literal, so `int()` rejects it. */
  lemma NoneIsNotDecimal()
    ensures ParseInt("None") == None
  {
  }
}

=== FILE: ipa_protocol.dfy ===
/** Both ends of a per-application relation together: what one side writes, the other reads back. */
module IngressPerAppProtocol {
  import opened Common
  import opened Databag
  import opened IngressPerAppSchema
  import opened IngressPerAppProvider
  import opened IngressPerAppRequirer

  /** As written, the record a requirer leader publishes never reaches the provider: its JSON
      text is no dict for `parse_obj`, so the provider reports a ValidationError and is not ready.
      Even the intended read would reject it, for its names were nulled by the validator. */
  lemma RecordNeverReachesProvider(rel: Relation, model: string, app: string, host: string, port: int)
    requires Named(rel.remoteApp)
    requires MakeRequirerData(model, app, host, port).Ok?
    requires "data" in rel.remoteAppBag
    requires rel.remoteAppBag["data"] == Encoded(RecordDoc(MakeRequirerData(model, app, host, port).value))
    ensures GetRequirerData(rel) == Err(ValidationError)
    ensures !IsReadyRelation(rel)
    ensures GetRequirerDataIntended(rel) == Err(ValidationError)
  {
  }

  /** With the intended validator and the intended read, the record a requirer leader publishes
      is what the provider fetches, so the provider becomes ready on that relation. */
  lemma RecordReachesProvider(rel: Relation, model: string, app: string, host: string, port: int)
    requires Named(rel.remoteApp)
    requires MakeRequirerDataIntended(model, app, host, port).Ok?
    requires "data" in rel.remoteAppBag
    requires rel.remoteAppBag["data"] == Encoded(RecordDoc(MakeRequirerDataIntended(model, app, host, port).value))
    ensures GetRequirerDataIntended(rel) == Ok(Some(RequirerData(Some(model), Some(app), Some(host), port)))
    ensures IsReadyRelationIntended(rel)
  {
  }

  /** With the intended publish (the URL record's JSON text), the URL the provider publishes is
      what the provider reads back and what every requirer unit reads, and a non-empty one makes
      the requirer ready. */
  lemma UrlReachesRequirer(req: Requirer, prov: Relation, rel: Relation, url: string)
    requires Named(prov.remoteApp) && rel.remoteApp.Some?
    requires "data" in prov.localAppBag && prov.localAppBag["data"] == Encoded(UrlDoc(url))
    requires "data" in rel.remoteAppBag && rel.remoteAppBag["data"] == prov.localAppBag["data"]
    ensures ProviderAppDataIntended(prov, true) == Ok(Published(url))
    ensures req.Url(rel) == Ok(Some(url))
    ensures req.IsReady(rel) == Ok(url != "")
  {
  }
}

=== FILE: ipa_provider.dfy ===
/** IngressPerAppProvider: the proxy's side of the per-application protocol. It reads each
    requirer application's record, reports readiness through events, and publishes one URL per
    relation under the `data` key of its own application databag. */
module IngressPerAppProvider {
  import opened Common
  import opened Databag
  import opened IngressPerAppSchema

  /** The events the provider emits; each also carries the relation, left implicit here. */
  datatype ProviderEvent = DataProvided | DataRemoved

  /** `_share_version_info` (on relation-joined): the leader advertises the supported versions. */
  method ShareVersionInfo(rel: Relation, isLeader: bool)
    modifies rel`localAppBag
    ensures isLeader ==> rel.localAppBag == old(rel.localAppBag)["_supported_versions" := Plain("- v1")]
    ensures !isLeader ==> rel.localAppBag == old(rel.localAppBag)
  {
    if isLeader {
      rel.localAppBag := rel.localAppBag["_supported_versions" := Plain("- v1")];
    }
  }

  /** `_get_requirer_data` as written: nothing (`{}`) for an unnamed remote application or an
      absent or empty `data` value; otherwise `RequirerData.parse_obj` of the stored text, which
      raises a ValidationError for every string, since pydantic first needs a dict. */
  function GetRequirerData(rel: Relation): (r: Result<Option<RequirerData>>)
    reads rel
    ensures r.Ok? <==> !Named(rel.remoteApp) || "data" !in rel.remoteAppBag || !Truthy(rel.remoteAppBag["data"])
    ensures r.Ok? ==> r.value.None?
    ensures r.Err? ==> r.error == ValidationError
  {
    if !Named(rel.remoteApp) then Ok(None)
    else
      var raw := Get(rel.remoteAppBag, "data");
      if raw.None? || !Truthy(raw.value) then Ok(None)
      else Err(ValidationError)
  }

  /** `is_ready(relation)` as written: `bool` of the fetched record, a validation failure meaning
      not ready; since no record is ever fetched, no relation is ever ready. */
  predicate IsReadyRelation(rel: Relation)
    reads rel
    ensures !IsReadyRelation(rel)
  {
    match GetRequirerData(rel)
    case Err(_) => false
    case Ok(data) => data.Some?
  }

  /** `is_ready()` with no relation: `any(map(self.is_ready, self.relations))`. */
  predicate IsReady(rels: seq<Relation>)
    reads rels
    ensures IsReady(rels) <==> exists i :: 0 <= i < |rels| && IsReadyRelation(rels[i])
  {
    if rels == [] then false
    else
      assert forall i :: 1 <= i < |rels| ==> rels[1..][i - 1] == rels[i];
      IsReadyRelation(rels[0]) || IsReady(rels[1..])
  }

  /** The provider is never ready, on any relation or on all of them together, and so never
      emits `data_provided`. */
  lemma ProviderNeverReady(rels: seq<Relation>)
    ensures !IsReady(rels)
  {
  }

  /** `_get_requirer_data` as evidently intended: the stored text parsed as JSON
      (`RequirerData.parse_raw`) with the intended validator. */
  function GetRequirerDataIntended(rel: Relation): (r: Result<Option<RequirerData>>)
    reads rel
    ensures !Named(rel.remoteApp) ==> r == Ok(None)
    ensures Named(rel.remoteApp) && (Get(rel.remoteAppBag, "data").None? || !Truthy(rel.remoteAppBag["data"])) ==> r == Ok(None)
    ensures r.Ok? && r.value.Some? ==>
      && Named(rel.remoteApp) && "data" in rel.remoteAppBag
      && ParseRecord(rel.remoteAppBag["data"]) == Ok(r.value.value)
    ensures r.Err? ==>
      && Named(rel.remoteApp) && "data" in rel.remoteAppBag
      && r == Err(ValidationError) && ParseRecord(rel.remoteAppBag["data"]).Err?
  {
    if !Named(rel.remoteApp) then Ok(None)
    else
      var raw := Get(rel.remoteAppBag, "data");
      if raw.None? || !Truthy(raw.value) then Ok(None)
      else
        match ParseRecord(raw.value)
        case Err(e) => Err(e)
        case Ok(d) => Ok(Some(d))
  }

  /** `is_ready(relation)` with the intended read. */
  predicate IsReadyRelationIntended(rel: Relation)
    reads rel
    ensures IsReadyRelationIntended(rel) <==>
      Named(rel.remoteApp) && "data" in rel.remoteAppBag && Truthy(rel.remoteAppBag["data"])
      && ParseRecord(rel.remoteAppBag["data"]).Ok?
  {
    match GetRequirerDataIntended(rel)
    case Err(_) => false
    case Ok(data) => data.Some?
  }

  /** `_handle_relation` (created, joined, changed): `data_provided` once, exactly when ready. */
  method HandleRelation(rel: Relation) returns (events: seq<ProviderEvent>)
    ensures |events| <= 1 && DataRemoved !in events
    ensures DataProvided in events <==> IsReadyRelation(rel)
  {
    events := [];
    if IsReadyRelation(rel) {
      events := events + [DataProvided];
    }
  }

  /** `_handle_relation_broken`: `data_removed`, unconditionally and exactly once. */
  method HandleRelationBroken() returns (events: seq<ProviderEvent>)
    ensures |events| == 1 && events[0] == DataRemoved
  {
    events := [DataRemoved];
  }

  /** `wipe_ingress_data`: deletes the `data` key and nothing else; deleting a key the databag
      does not hold is no error. There is no leadership check, so on a non-leader the databag
      refuses the write. */
  method WipeIngressData(rel: Relation, isLeader: bool) returns (outcome: Outcome)
    modifies rel`localAppBag
    ensures !isLeader ==> outcome == Fail(RelationDataError) && rel.localAppBag == old(rel.localAppBag)
    ensures isLeader ==> outcome == Pass && rel.localAppBag == old(rel.localAppBag) - {"data"}
  {
    if !isLeader {
      return Fail(RelationDataError);
    }
    rel.localAppBag := rel.localAppBag - {"data"};
    return Pass;
  }

  /** `publish_url` as written: `ProviderData(ingress=ingress)` hands the JSON-typed `ingress`
      field a `ProviderIngressData` object instead of text, so building the wrapper is a
      ValidationError and nothing is published, whoever the caller. (Were it built, the databag
      would refuse the wrapper, which is no string, all the same.) */
  method PublishUrl(rel: Relation, url: string) returns (outcome: Outcome)
    modifies rel`localAppBag
    ensures outcome == Fail(ValidationError)
    ensures rel.localAppBag == old(rel.localAppBag)
  {
    outcome := Fail(ValidationError);
  }

  /** `publish_url` as evidently intended: the leader stores the JSON text of the URL record,
      which is what the requirer reads; every other key is kept. */
  method PublishUrlIntended(rel: Relation, url: string, isLeader: bool) returns (outcome: Outcome)
    modifies rel`localAppBag
    ensures !isLeader ==> outcome == Fail(RelationDataError) && rel.localAppBag == old(rel.localAppBag)
    ensures isLeader ==> outcome == Pass && rel.localAppBag == old(rel.localAppBag)["data" := Encoded(UrlDoc(url))]
  {
    if !isLeader {
      return Fail(RelationDataError);
    }
    rel.localAppBag := rel.localAppBag["data" := Encoded(UrlDoc(url))];
    return Pass;
  }

  /** What `_provider_app_data` yields for one relation. */
  datatype Endpoint =
    | EmptyRecord          // `{}`: the remote application is missing or unnamed
    | NotLeader            // `None`: only the leader reads its application databag
    | Published(url: string)

  /** `_provider_app_data` as written: `{}` for an unnamed remote application, None off the
      leader; the leader's `ProviderData.parse_obj` raises KeyError without a `data` key and a
      ValidationError on any stored text, so no URL is ever read back. */
  function ProviderAppData(rel: Relation, isLeader: bool): (r: Result<Endpoint>)
    reads rel
    ensures !Named(rel.remoteApp) ==> r == Ok(EmptyRecord)
    ensures Named(rel.remoteApp) && !isLeader ==> r == Ok(NotLeader)
    ensures Named(rel.remoteApp) && isLeader ==>
      r == Err(if "data" in rel.localAppBag then ValidationError else KeyError)
    ensures !r.Ok? || !r.value.Published?
  {
    if !Named(rel.remoteApp) then Ok(EmptyRecord)
    else if !isLeader then Ok(NotLeader)
    else if "data" !in rel.localAppBag then Err(KeyError)
    else Err(ValidationError)
  }

  /** `_provider_app_data` as evidently intended: the stored JSON text read the way the requirer
      reads it. */
  function ProviderAppDataIntended(rel: Relation, isLeader: bool): (r: Result<Endpoint>)
    reads rel
    ensures !Named(rel.remoteApp) ==> r == Ok(EmptyRecord)
    ensures Named(rel.remoteApp) && !isLeader ==> r == Ok(NotLeader)
    ensures Named(rel.remoteApp) && isLeader ==>
      if "data" !in rel.localAppBag then r == Err(KeyError)
      else match ParseUrl(rel.localAppBag["data"])
           case Ok(url) => r == Ok(Published(url))
           case Err(e) => r == Err(e)
  {
    if !Named(rel.remoteApp) then Ok(EmptyRecord)
    else if !isLeader then Ok(NotLeader)
    else if "data" !in rel.localAppBag then Err(KeyError)
    else
      match ParseUrl(rel.localAppBag["data"])
      case Err(e) => Err(e)
      case Ok(url) => Ok(Published(url))
  }

  /** With the intended publish and read, the URL a leader publishes is what it then reads back
      for that relation; the read as written rejects that text all the same. */
  lemma PublishedUrlReadBack(rel: Relation, url: string)
    requires Named(rel.remoteApp) && "data" in rel.localAppBag && rel.localAppBag["data"] == Encoded(UrlDoc(url))
    ensures ProviderAppDataIntended(rel, true) == Ok(Published(url))
    ensures ProviderAppData(rel, true) == Err(ValidationError)
  {
  }

  /** After a wipe the leader's read raises KeyError, as written and as intended. */
  lemma WipedUrlUnreadable(rel: Relation)
    requires Named(rel.remoteApp) && "data" !in rel.localAppBag
    ensures ProviderAppData(rel, true) == Err(KeyError)
    ensures ProviderAppDataIntended(rel, true) == Err(KeyError)
  {
  }

  /** `proxied_endpoints` over the relations in order: one entry per remote application name,
      a later relation replacing an earlier one of the same name; the first exception escapes,
      including the AttributeError of a relation without a remote application. */
  function Proxied(rels: seq<Relation>, isLeader: bool): (r: Result<map<string, Endpoint>>)
    reads rels
    ensures r.Ok? ==> forall i :: 0 <= i < |rels| ==> rels[i].remoteApp.Some?
    ensures r.Ok? ==> r.value.Keys == set i | 0 <= i < |rels| :: rels[i].remoteApp.value
    decreases |rels|
  {
    if rels == [] then Ok(map[])
    else
      var last := rels[|rels| - 1];
      var prefix := rels[..|rels| - 1];
      match Proxied(prefix, isLeader)
      case Err(e) => Err(e)
      case Ok(acc) =>
        match ProviderAppData(last, isLeader)
        case Err(e) => Err(e)
        case Ok(data) =>
          if last.remoteApp.None? then Err(AttributeError)
          else
            assert forall i :: 0 <= i < |prefix| ==> prefix[i] == rels[i];
            assert (set i | 0 <= i < |rels| :: rels[i].remoteApp.value)
                == (set i | 0 <= i < |prefix| :: prefix[i].remoteApp.value) + {last.remoteApp.value};
            Ok(acc[last.remoteApp.value := data])
  }

  /** `proxied_endpoints`: the loop over `self.relations`. */
  method ProxiedEndpoints(rels: seq<Relation>, isLeader: bool) returns (r: Result<map<string, Endpoint>>)
    ensures r == Proxied(rels, isLeader)
  {
    var results: map<string, Endpoint> := map[];
    var i := 0;
    while i < |rels|
      invariant 0 <= i <= |rels|
      invariant Proxied(rels[..i], isLeader) == Ok(results)
    {
      var rel := rels[i];
      assert rels[..i + 1][..i] == rels[..i];
      var data := ProviderAppData(rel, isLeader);
      if data.Err? {
        ProxiedErrorSticks(rels, i + 1, isLeader);
        return Err(data.error);
      }
      if rel.remoteApp.None? {
        ProxiedErrorSticks(rels, i + 1, isLeader);
        return Err(AttributeError);
      }
      results := results[rel.remoteApp.value := data.value];
      i := i + 1;
    }
    assert rels[..i] == rels;
    return Ok(results);
  }

  /** Once a relation raises, `proxied_endpoints` raises that error. */
  lemma {:induction false} ProxiedErrorSticks(rels: seq<Relation>, i: nat, isLeader: bool)
    requires i <= |rels| && Proxied(rels[..i], isLeader).Err?
    ensures Proxied(rels, isLeader) == Proxied(rels[..i], isLeader)
    decreases |rels| - i
  {
    if i < |rels| {
      assert rels[..i + 1][..i] == rels[..i];
      ProxiedErrorSticks(rels, i + 1, isLeader);
    } else {
      assert rels[..i] == rels;
    }
  }

  /** The entry under a remote application's name is what the LAST relation of that name yields. */
  lemma {:induction false} ProxiedLastWins(rels: seq<Relation>, isLeader: bool, i: nat)
    requires Proxied(rels, isLeader).Ok? && i < |rels|
    requires forall j :: i < j < |rels| ==> rels[j].remoteApp != rels[i].remoteApp
    ensures rels[i].remoteApp.Some? && ProviderAppData(rels[i], isLeader).Ok?
    ensures Proxied(rels, isLeader).value[rels[i].remoteApp.value] == ProviderAppData(rels[i], isLeader).value
    decreases |rels|
  {
    var n := |rels| - 1;
    var prefix := rels[..n];
    assert forall j :: 0 <= j < n ==> prefix[j] == rels[j];
    if i < n {
      ProxiedLastWins(prefix, isLeader, i);
      assert rels[n].remoteApp.Some?;
    }
  }
}

=== FILE: ipa_requirer.dfy ===
/** IngressPerAppRequirer: the application's side of the per-application protocol. The leader
    publishes the application's record; every unit reads the single URL the provider publishes
    and reports it once per change. */
module IngressPerAppRequirer {
  import opened Common
  import opened Databag
  import opened IngressPerAppSchema

  /** The events the requirer emits; each also carries the relation, left implicit here. */
  datatype RequirerEvent = AppReady | AppRevoked

  /** `_auto_data`: the host and port given at construction. */
  datatype AutoData = AutoData(host: Option<string>, port: int)

  /** The requirer end of a per-application relation, on one unit. `currentUrl` is the stored URL
      last reported, which survives between hooks. */
  class Requirer {
    const appName: string
    const modelName: string
    const autoData: Option<AutoData>
    var currentUrl: Option<string>

    /** `__init__`: `stored` is what the stored state already held (None on first use); the
        auto data is kept only for a truthy port. */
    constructor (appName: string, modelName: string, host: Option<string>, port: Option<int>,
                 stored: Option<string>)
      ensures this.appName == appName && this.modelName == modelName
      ensures autoData.Some? <==> port.Some? && port.value != 0
      ensures autoData.Some? ==> autoData.value == AutoData(host, port.value)
      ensures currentUrl == stored
    {
      this.appName := appName;
      this.modelName := modelName;
      autoData := if port.Some? && port.value != 0 then Some(AutoData(host, port.value)) else None;
      currentUrl := stored;
    }

    /** `url`: the URL the provider published, None without a relation or while nothing is
        published; a relation without a remote application has no databag to index (KeyError),
        and an unreadable record is a ValidationError. */
    function Url(rel: Relation?): (r: Result<Option<string>>)
      reads rel
      ensures rel == null ==> r == Ok(None)
      ensures rel != null && rel.remoteApp.None? ==> r == Err(KeyError)
      ensures r.Ok? && r.value.Some? ==>
        && rel != null && "data" in rel.remoteAppBag
        && ParseUrl(rel.remoteAppBag["data"]) == Ok(r.value.value)
      ensures r.Err? && rel != null && rel.remoteApp.Some? ==>
        && r.error == ValidationError
        && "data" in rel.remoteAppBag && Truthy(rel.remoteAppBag["data"])
        && ParseUrl(rel.remoteAppBag["data"]).Err?
      ensures rel != null && rel.remoteApp.Some? && "data" in rel.remoteAppBag && Truthy(rel.remoteAppBag["data"])
        ==> r.Ok? == ParseUrl(rel.remoteAppBag["data"]).Ok?
    {
      if rel == null then Ok(None)
      else if rel.remoteApp.None? then Err(KeyError)
      else
        var raw := Get(rel.remoteAppBag, "data");
        if raw.None? || !Truthy(raw.value) then Ok(None)
        else
          match ParseUrl(raw.value)
          case Err(e) => Err(e)
          case Ok(url) => Ok(Some(url))
    }

    /** `is_ready()`: a non-empty URL is published; a ValidationError means not ready, while the
        KeyError of a missing remote application escapes. */
    function IsReady(rel: Relation?): (r: Result<bool>)
      reads rel
      ensures r == Ok(true) <==> Url(rel).Ok? && Url(rel).value.Some? && Url(rel).value.value != ""
      ensures r.Err? <==> Url(rel) == Err(KeyError)
      ensures r.Err? ==> r.error == KeyError
    {
      match Url(rel)
      case Err(e) => if e == ValidationError then Ok(false) else Err(e)
      case Ok(None) => Ok(false)
      case Ok(Some(u)) => Ok(u != "")
    }

    /** `_emit_ingress_ready_event`: `ready` exactly when the URL differs from the stored one,
        which is then replaced; a second call with the same URL emits nothing. */
    method EmitIngressReadyEvent(rel: Relation?) returns (events: seq<RequirerEvent>, outcome: Outcome)
      modifies this
      ensures Url(rel).Err? ==> events == [] && outcome == Fail(Url(rel).error) && currentUrl == old(currentUrl)
      ensures Url(rel).Ok? ==>
        && outcome == Pass
        && currentUrl == Url(rel).value
        && (events == [AppReady] <==> old(currentUrl) != Url(rel).value)
        && (events == [] <==> old(currentUrl) == Url(rel).value)
    {
      var newUrl := Url(rel);
      if newUrl.Err? {
        return [], Fail(newUrl.error);
      }
      events := [];
      if currentUrl != newUrl.value {
        currentUrl := newUrl.value;
        events := events + [AppReady];
      }
      outcome := Pass;
    }

    /** `provide_ingress_requirements`: leader only (checked first); the host defaults to the FQDN,
        a space in the model, application or host name is a ValidationError, and the record is
        written under `data` of this application's databag. */
    method ProvideIngressRequirements(rel: Relation?, isLeader: bool, host: Option<string>, port: int, fqdn: string)
      returns (outcome: Outcome)
      modifies rel
      ensures !isLeader ==> outcome == Fail(AssertionError)
      ensures isLeader && MakeRequirerData(modelName, appName, HostOr(host, fqdn), port).Err? ==>
        outcome == Fail(ValidationError)
      ensures isLeader && MakeRequirerData(modelName, appName, HostOr(host, fqdn), port).Ok? && rel == null ==>
        outcome == Fail(AttributeError)
      ensures outcome.Fail? && rel != null ==> unchanged(rel)
      ensures outcome == Pass <==>
        isLeader && rel != null && MakeRequirerData(modelName, appName, HostOr(host, fqdn), port).Ok?
      ensures outcome == Pass ==>
        && rel.localAppBag == old(rel.localAppBag)["data" := Encoded(RecordDoc(MakeRequirerData(modelName, appName, HostOr(host, fqdn), port).value))]
        && rel.remoteAppBag == old(rel.remoteAppBag)
        && rel.localUnitBag == old(rel.localUnitBag)
        && rel.remoteUnitBags == old(rel.remoteUnitBags)
    {
      if !isLeader {
        return Fail(AssertionError);
      }
      var data := MakeRequirerData(modelName, appName, HostOr(host, fqdn), port);
      if data.Err? {
        return Fail(data.error);
      }
      if rel == null {
        return Fail(AttributeError);
      }
      rel.localAppBag := rel.localAppBag["data" := Encoded(RecordDoc(data.value))];
      outcome := Pass;
    }

    /** What `_publish_auto_data` comes to: nothing to do without auto data or off the leader,
        otherwise what `provide_ingress_requirements` comes to (`related` says whether the
        application has a relation to write to). */
    function AutoPublishOutcome(related: bool, isLeader: bool, fqdn: string): (r: Outcome)
      ensures autoData.None? || !isLeader ==> r == Pass
      ensures r == Fail(ValidationError) <==>
        autoData.Some? && isLeader && MakeRequirerData(modelName, appName, HostOr(autoData.value.host, fqdn), autoData.value.port).Err?
      ensures autoData.Some? && isLeader && MakeRequirerData(modelName, appName, HostOr(autoData.value.host, fqdn), autoData.value.port).Ok? ==>
        (r == Pass <==> related) && (!related ==> r == Fail(AttributeError))
    {
      if autoData.None? || !isLeader then Pass
      else if MakeRequirerData(modelName, appName, HostOr(autoData.value.host, fqdn), autoData.value.port).Err? then Fail(ValidationError)
      else if !related then Fail(AttributeError)
      else Pass
    }

    /** `_publish_auto_data`: only with auto data and only on the leader; a written record is the
        auto data's, with the host defaulting to the FQDN. */
    method PublishAutoData(rel: Relation?, isLeader: bool, fqdn: string) returns (outcome: Outcome)
      modifies rel
      ensures outcome == AutoPublishOutcome(rel != null, isLeader, fqdn)
      ensures autoData.None? || !isLeader ==> rel != null ==> unchanged(rel)
      ensures outcome.Fail? && rel != null ==> unchanged(rel)
      ensures outcome == Pass && autoData.Some? && isLeader ==>
        && rel != null
        && rel.localAppBag == old(rel.localAppBag)["data" :=
             Encoded(RecordDoc(MakeRequirerData(modelName, appName, HostOr(autoData.value.host, fqdn), autoData.value.port).value))]
        && rel.remoteAppBag == old(rel.remoteAppBag)
        && rel.localUnitBag == old(rel.localUnitBag)
        && rel.remoteUnitBags == old(rel.remoteUnitBags)
    {
      outcome := Pass;
      if autoData.Some? && isLeader {
        outcome := ProvideIngressRequirements(rel, isLeader, autoData.value.host, autoData.value.port, fqdn);
      }
    }

    /** `_handle_relation` (created, joined, changed): republish the auto data, then report the URL
        if this side is ready. Publishing touches only this application's databag, so readiness is
        judged on the provider's data as it was. A failed publish is the outcome; otherwise the
        KeyError readiness may raise is, and otherwise the handler passes. */
    method HandleRelation(rel: Relation?, isLeader: bool, fqdn: string)
      returns (events: seq<RequirerEvent>, outcome: Outcome)
      modifies this, rel
      ensures AutoPublishOutcome(rel != null, isLeader, fqdn).Fail? ==>
        outcome == AutoPublishOutcome(rel != null, isLeader, fqdn)
      ensures AutoPublishOutcome(rel != null, isLeader, fqdn) == Pass ==>
        outcome == if old(IsReady(rel)).Err? then Fail(old(IsReady(rel)).error) else Pass
      ensures rel != null && AutoPublishOutcome(true, isLeader, fqdn).Fail? ==> rel.localAppBag == old(rel.localAppBag)
      ensures rel != null && AutoPublishOutcome(true, isLeader, fqdn) == Pass ==>
        rel.localAppBag == if autoData.Some? && isLeader
          then old(rel.localAppBag)["data" :=
                 Encoded(RecordDoc(MakeRequirerData(modelName, appName, HostOr(autoData.value.host, fqdn), autoData.value.port).value))]
          else old(rel.localAppBag)
      ensures rel != null ==>
        && rel.remoteAppBag == old(rel.remoteAppBag)
        && rel.localUnitBag == old(rel.localUnitBag)
        && rel.remoteUnitBags == old(rel.remoteUnitBags)
      ensures AppRevoked !in events && |events| <= 1
      ensures outcome.Fail? ==> events == [] && currentUrl == old(currentUrl)
      ensures outcome == Pass && old(IsReady(rel)) == Ok(true) ==> currentUrl == old(Url(rel)).value
      ensures events == [AppReady] ==>
        && old(IsReady(rel)) == Ok(true)
        && old(currentUrl) != old(Url(rel)).value
        && currentUrl == old(Url(rel)).value
      ensures old(IsReady(rel)) == Ok(true) && old(currentUrl) != old(Url(rel)).value && outcome == Pass ==>
        events == [AppReady]
      ensures old(IsReady(rel)) != Ok(true) ==> events == [] && currentUrl == old(currentUrl)
    {
      ghost var readyBefore := IsReady(rel);
      outcome := PublishAutoData(rel, isLeader, fqdn);
      events := [];
      if outcome.Fail? {
        return;
      }
      assert rel != null ==> rel.remoteAppBag == old(rel.remoteAppBag);
      assert IsReady(rel) == readyBefore && Url(rel) == old(Url(rel));
      var ready := IsReady(rel);
      if ready.Err? {
        return events, Fail(ready.error);
      }
      if ready.value {
        events, outcome := EmitIngressReadyEvent(rel);
      }
    }

    /** `_handle_relation_broken`: `revoked`, unconditionally; the stored URL is kept. */
    method HandleRelationBroken() returns (events: seq<RequirerEvent>)
      ensures events == [AppRevoked]
    {
      events := [AppRevoked];
    }
  }
}

=== FILE: ipa_schema.dfy ===
/** The wire shapes of the per-application ingress protocol: the requirer's record and the
    provider's URL record, with the validation pydantic applies to them. Three places in the
    library do not fit together; each is modelled as written, next to the evidently intended
    definition:
    - the name validator returns nothing, so a valid record carries `None` names;
    - the provider parses the requirer's JSON text with `parse_obj`, which wants a mapping;
    - the provider builds its `ProviderData` wrapper from an object where the field wants JSON
      text, while the requirer reads the JSON text of the bare URL record.
    The field types are taken to be those of the `# type:` comments beside each field. */
module IngressPerAppSchema {
  import opened Common
  import opened Databag

  /** RequirerData: what the requirer application publishes under `data`. The three names are
      optional because the validator as written replaces them by `None`. */
  datatype RequirerData = RequirerData(model: Option<string>, name: Option<string>, host: Option<string>, port: int)

  /** No space in the name. */
  predicate NoSpaces(s: string) {
    ' ' !in s
  }

  /** `name_cannot_contain_spaces` as written: it raises for a space and otherwise returns
      nothing, and pydantic stores what a validator returns, so the field becomes `None`. */
  function CheckName(v: string): (r: Result<Option<string>>)
    ensures r.Ok? <==> NoSpaces(v)
    ensures r.Ok? ==> r.value.None?
    ensures r.Err? ==> r.error == ValidationError
  {
    if NoSpaces(v) then Ok(None) else Err(ValidationError)
  }

  /** The validator as evidently intended: it hands back the name it accepted. */
  function CheckNameIntended(v: string): (r: Result<Option<string>>)
    ensures r.Ok? <==> NoSpaces(v)
    ensures r.Ok? ==> r.value == Some(v)
    ensures r.Err? ==> r.error == ValidationError
  {
    if NoSpaces(v) then Ok(Some(v)) else Err(ValidationError)
  }

  /** A record built from three validated names; the first failure wins. */
  function Assemble(model: Result<Option<string>>, name: Result<Option<string>>, host: Result<Option<string>>,
                    port: int): (r: Result<RequirerData>)
    ensures r.Ok? <==> model.Ok? && name.Ok? && host.Ok?
    ensures r.Ok? ==> r.value == RequirerData(model.value, name.value, host.value, port)
    ensures r.Err? ==> (model.Err? && r.error == model.error) || (name.Err? && r.error == name.error)
                       || (host.Err? && r.error == host.error)
  {
    match (model, name, host)
    case (Ok(m), Ok(n), Ok(h)) => Ok(RequirerData(m, n, h, port))
    case (Err(e), _, _) => Err(e)
    case (_, Err(e), _) => Err(e)
    case (_, _, Err(e)) => Err(e)
  }

  /** `RequirerData(model=..., name=..., host=..., port=...)` as written: a ValidationError when
      one of the three names contains a space, and otherwise a record whose names are all `None`. */
  function MakeRequirerData(model: string, name: string, host: string, port: int): (r: Result<RequirerData>)
    ensures r.Ok? <==> NoSpaces(model) && NoSpaces(name) && NoSpaces(host)
    ensures r.Ok? ==> r.value.model.None? && r.value.name.None? && r.value.host.None? && r.value.port == port
    ensures r.Err? ==> r.error == ValidationError
  {
    Assemble(CheckName(model), CheckName(name), CheckName(host), port)
  }

  /** A record whose three names are present and free of spaces. */
  predicate RecordOk(d: RequirerData) {
    && d.model.Some? && NoSpaces(d.model.value)
    && d.name.Some? && NoSpaces(d.name.value)
    && d.host.Some? && NoSpaces(d.host.value)
  }

  /** The constructor with the validator as intended: the record keeps the names it was given. */
  function MakeRequirerDataIntended(model: string, name: string, host: string, port: int): (r: Result<RequirerData>)
    ensures r.Ok? <==> NoSpaces(model) && NoSpaces(name) && NoSpaces(host)
    ensures r.Ok? ==> r.value == RequirerData(Some(model), Some(name), Some(host), port) && RecordOk(r.value)
    ensures r.Err? ==> r.error == ValidationError
  {
    Assemble(CheckNameIntended(model), CheckNameIntended(name), CheckNameIntended(host), port)
  }

  /** Every record the constructor as written accepts has lost its names, where the intended
      constructor keeps them. */
  lemma ValidatorDropsNames(model: string, name: string, host: string, port: int)
    requires NoSpaces(model) && NoSpaces(name) && NoSpaces(host)
    ensures MakeRequirerData(model, name, host, port) == Ok(RequirerData(None, None, None, port))
    ensures MakeRequirerDataIntended(model, name, host, port) == Ok(RequirerData(Some(model), Some(name), Some(host), port))
    ensures MakeRequirerData(model, name, host, port) != MakeRequirerDataIntended(model, name, host, port)
  {
  }

  /** A name as a JSON value: a string, or `null` for `None`. */
  function NameNode(o: Option<string>): (n: Node)
    ensures o.Some? <==> n.Str?
    ensures o.Some? ==> n.s == o.value
    ensures o.None? ==> n == Null
  {
    match o
    case Some(s) => Str(s)
    case None => Null
  }

  /** `data.json()`: the document the requirer writes. */
  function RecordDoc(d: RequirerData): (doc: map<string, Node>)
    ensures doc.Keys == {"model", "name", "host", "port"}
    ensures doc["port"] == Int(d.port)
  {
    map["model" := NameNode(d.model), "name" := NameNode(d.name), "host" := NameNode(d.host), "port" := Int(d.port)]
  }

  /** A name field that the validator accepts. */
  predicate NameOk(doc: map<string, Node>, key: string) {
    key in doc && doc[key].Str? && NoSpaces(doc[key].s)
  }

  /** One name field of a record document: a string, put through the intended validator; a
      missing field, `null` or any other value is a ValidationError. */
  function NameField(doc: map<string, Node>, key: string): (r: Result<Option<string>>)
    ensures r.Ok? <==> NameOk(doc, key)
    ensures r.Ok? ==> r.value == Some(doc[key].s)
    ensures r.Err? ==> r.error == ValidationError
  {
    if key in doc && doc[key].Str? then CheckNameIntended(doc[key].s) else Err(ValidationError)
  }

  /** The evidently intended read, `RequirerData.parse_raw(raw)` with the intended validator:
      all four fields present, the three names strings without spaces, the port an integer.
      (As written, `parse_obj` first turns its argument into a dict, which no string is, so it
      fails on every stored value; see `GetRequirerData`.) */
  function ParseRecord(v: Value): (r: Result<RequirerData>)
    ensures r.Ok? <==>
      v.Encoded? && NameOk(v.doc, "model") && NameOk(v.doc, "name") && NameOk(v.doc, "host")
      && "port" in v.doc && v.doc["port"].Int?
    ensures r.Ok? ==>
      && v.Encoded? && RecordOk(r.value)
      && forall k :: k in RecordDoc(r.value) ==> k in v.doc && v.doc[k] == RecordDoc(r.value)[k]
    ensures r.Err? ==> r.error == ValidationError
  {
    if !v.Encoded? then Err(ValidationError)
    else
      var doc := v.doc;
      match Assemble(NameField(doc, "model"), NameField(doc, "name"), NameField(doc, "host"), 0)
      case Err(e) => Err(e)
      case Ok(d) => if "port" in doc && doc["port"].Int? then Ok(d.(port := doc["port"].i)) else Err(ValidationError)
  }

  /** With the intended definitions, the record a requirer writes reads back as itself. */
  lemma ParseRecordDoc(d: RequirerData, extra: map<string, Node>)
    requires RecordOk(d)
    ensures ParseRecord(Encoded(extra + RecordDoc(d))) == Ok(d)
  {
  }

  /** A record with a space in one of its names never parses. */
  lemma ParseRejectsSpaces(v: Value)
    requires v.Encoded? && "host" in v.doc && v.doc["host"].Str? && !NoSpaces(v.doc["host"].s)
    ensures ParseRecord(v) == Err(ValidationError)
  {
  }

  /** The JSON of `ProviderIngressData(url=url)`. */
  function UrlDoc(url: string): (doc: map<string, Node>)
    ensures doc.Keys == {"url"} && doc["url"] == Str(url)
  {
    map["url" := Str(url)]
  }

  /** `ProviderData(ingress=raw).ingress.url`, the requirer's read: the stored value must be the
      JSON text of a `ProviderIngressData` with a string `url`; anything else is a ValidationError. */
  function ParseUrl(v: Value): (r: Result<string>)
    ensures r.Ok? <==> v.Encoded? && "url" in v.doc && v.doc["url"].Str?
    ensures r.Ok? ==> r.value == v.doc["url"].s
    ensures r.Err? ==> r.error == ValidationError
  {
    if v.Encoded? && "url" in v.doc && v.doc["url"].Str? then Ok(v.doc["url"].s) else Err(ValidationError)
  }

  /** The JSON text of a `ProviderIngressData` reads back as its URL. */
  lemma ParseUrlDoc(url: string)
    ensures ParseUrl(Encoded(UrlDoc(url))) == Ok(url)
  {
  }

  /** The JSON of `ProviderData(ingress=ProviderIngressData(url=url))`, the wrapper the provider
      builds. */
  function ProviderDataDoc(url: string): (doc: map<string, Node>)
    ensures doc.Keys == {"ingress"} && doc["ingress"] == Map(UrlDoc(url))
  {
    map["ingress" := Map(UrlDoc(url))]
  }

  /** Even serialised to text, the wrapper would not be read by the requirer, which looks for
      `url` at the top level. */
  lemma WrapperTextNotRead(url: string)
    ensures ParseUrl(Encoded(ProviderDataDoc(url))) == Err(ValidationError)
  {
  }
}

=== FILE: ipu_protocol.dfy ===
/** Both ends of a per-unit relation together: what one side writes, the other reads back. */
module IngressPerUnitProtocol {
  import opened Common
  import opened Decimal
  import opened Databag
  import opened IngressPerUnitSchema
  import opened IngressPerUnitProvider
  import opened IngressPerUnitRequirer

  /** A URL the provider publishes for a unit is what that unit's requirer reads back from
      `urls`, and every other unit keeps the URL it had. */
  lemma PublishedUrlReadBack(raw: Option<Value>, unitName: string, url: string)
    requires PlanPublish(raw, unitName, url, true).Write?
    ensures UrlsOf(raw, true).Ok?
    ensures UrlsOf(Some(Encoded(PlanPublish(raw, unitName, url, true).urls)), true)
            == Ok(UrlsOf(raw, true).value[unitName := url])
  {
    var urls := PlanPublish(raw, unitName, url, true).urls;
    var before := ReadIngress(raw).value;
    assert IngressValid(before);
    var after := UrlsOf(Some(Encoded(urls)), true);
    assert after.Ok?;
    var expected := UrlsOf(raw, true).value[unitName := url];
    assert after.value.Keys == expected.Keys;
    forall k | k in expected
      ensures after.value[k] == expected[k]
    {
      assert urls[k].fields["url"] == Str(after.value[k]);
      if k != unitName {
        assert raw.Some? && Truthy(raw.value);
        assert urls[k] == before.fields[k];
        assert before.fields[k].fields["url"] == Str(expected[k]);
      }
    }
    assert after.value == expected;
  }

  /** The coordinates a requirer unit publishes with a port are exactly the record the provider
      fetches for that unit: the port survives `str()` followed by `int()`. */
  lemma CoordinatesReadBack(rel: Relation, unit: string, model: string, host: string, port: int, earlier: UnitBag)
    requires unit in rel.remoteUnitBags
    requires rel.remoteUnitBags[unit] == earlier + Coordinates(model, unit, host, PortText(Some(port)))
    ensures GetRequirerUnitData(rel, unit) == Ok(RequirerData(model, unit, host, port))
  {
  }

  /** A requirer unit created with a falsy port publishes the port "None"; once that record reaches
      the provider, `int()` raises for it and the whole relation reads as not ready, whatever the
      other units published. */
  lemma NonePortSpoilsRelation(rel: Relation, unit: string, model: string, host: string, earlier: UnitBag)
    requires Named(rel.remoteApp) && unit in rel.units && unit in rel.remoteUnitBags
    requires rel.remoteUnitBags[unit] == earlier + Coordinates(model, unit, host, PortText(None))
    ensures GetRequirerUnitData(rel, unit) == Err(ValueError)
    ensures UnitsData(rel) == Err(ValueError)
    ensures !IsReadyRelation(rel)
  {
  }
}

=== FILE: ipu_provider.dfy ===
/** IngressPerUnitProvider: the reverse proxy's side of the per-unit protocol. It reads the
    coordinates each requirer unit publishes and, as leader, publishes one URL per unit. */
module IngressPerUnitProvider {
  import opened Common
  import opened Decimal
  import opened Databag
  import opened IngressPerUnitSchema

  /** `_IngressPerUnitBase.is_ready(relation)`: the remote application is known and named. */
  predicate BaseIsReady(rel: Relation)
    reads rel
    ensures BaseIsReady(rel) <==> rel.remoteApp.Some? && rel.remoteApp.value != ""
  {
    Named(rel.remoteApp)
  }

  /** `_get_requirer_unit_data` (and `get_data`): the four coordinates of one remote unit,
      with the port cast by `int()`. A missing bag or key is a KeyError; a non-decimal port a ValueError. */
  function GetRequirerUnitData(rel: Relation, unit: string): (r: Result<RequirerData>)
    reads rel
    ensures r.Ok? <==>
      unit in rel.remoteUnitBags && UnitSchemaOk(rel.remoteUnitBags[unit])
      && IsDecimal(rel.remoteUnitBags[unit]["port"])
    ensures r.Ok? ==>
      var bag := rel.remoteUnitBags[unit];
      r.value == RequirerData(bag["model"], bag["name"], bag["host"], ParseInt(bag["port"]).value)
    ensures r == Err(KeyError) <==> unit !in rel.remoteUnitBags || !UnitSchemaOk(rel.remoteUnitBags[unit])
    ensures r.Err? ==> r.error == KeyError || r.error == ValueError
  {
    if unit !in rel.remoteUnitBags then Err(KeyError)
    else
      var databag := rel.remoteUnitBags[unit];
      // `{k: databag[k] for k in ('port', 'host', 'model', 'name')}`; the schema check that
      // follows cannot fail on databag strings (see UnitSchemaCannotFail)
      if !UnitSchemaOk(databag) then Err(KeyError)
      else
        match ParseInt(databag["port"])
        case None => Err(ValueError)
        case Some(port) => Ok(RequirerData(databag["model"], databag["name"], databag["host"], port))
  }

  /** Once all four keys were fetched, INGRESS_REQUIRES_UNIT_SCHEMA holds: the DataValidationError
      branches of `_requirer_units_data` and `is_unit_ready` are never taken. */
  lemma UnitSchemaCannotFail(bag: UnitBag, validation: bool)
    requires UnitSchemaOk(bag)
    ensures ValidateData(validation, UnitSchemaOk(map k | k in RequiredKeys :: bag[k])) == Pass
  {
  }

  /** What `_requirer_units_data` computes: `{}` for an unnamed remote application; otherwise every
      remote unit with a complete record, unless some unit's complete record has a non-decimal port,
      whose ValueError escapes the loop. */
  function UnitsData(rel: Relation): (r: Result<map<string, RequirerData>>)
    reads rel
    ensures !Named(rel.remoteApp) ==> r == Ok(map[])
    ensures r.Err? ==> r.error == ValueError
    ensures r.Ok? ==> forall u :: u in r.value ==> u in rel.units && GetRequirerUnitData(rel, u) == Ok(r.value[u])
  {
    if !Named(rel.remoteApp) then Ok(map[])
    else if exists u :: u in rel.units && GetRequirerUnitData(rel, u) == Err(ValueError) then Err(ValueError)
    else Ok(map u | u in rel.units && GetRequirerUnitData(rel, u).Ok? :: GetRequirerUnitData(rel, u).value)
  }

  /** `_requirer_units_data`: the loop over the remote units, in the runtime's (unspecified) set order. */
  method RequirerUnitsData(rel: Relation) returns (r: Result<map<string, RequirerData>>)
    ensures r == UnitsData(rel)
  {
    if !Named(rel.remoteApp) {
      return Ok(map[]);
    }
    var pending := rel.units;
    var acc: map<string, RequirerData> := map[];
    while pending != {}
      invariant pending <= rel.units
      invariant forall u :: u in rel.units - pending ==> GetRequirerUnitData(rel, u) != Err(ValueError)
      invariant acc == map u | u in rel.units - pending && GetRequirerUnitData(rel, u).Ok? :: GetRequirerUnitData(rel, u).value
      decreases pending
    {
      var u :| u in pending;
      var data := GetRequirerUnitData(rel, u);
      match data {
        case Err(e) =>
          if e == ValueError {
            return Err(ValueError);
          }
          // KeyError: this remote unit has not shared its data yet
        case Ok(d) =>
          acc := acc[u := d];
      }
      pending := pending - {u};
    }
    assert rel.units - pending == rel.units;
    assert !exists u :: u in rel.units && GetRequirerUnitData(rel, u) == Err(ValueError);
    return Ok(acc);
  }

  /** The units `_requirer_units_data` keeps are exactly those whose record could be fetched. */
  lemma UnitsDataKeys(rel: Relation)
    requires UnitsData(rel).Ok? && Named(rel.remoteApp)
    ensures forall u :: u in UnitsData(rel).value <==> u in rel.units && GetRequirerUnitData(rel, u).Ok?
    ensures UnitsData(rel).value != map[] <==> exists u :: u in rel.units && GetRequirerUnitData(rel, u).Ok?
  {
  }

  /** `is_ready(relation)`: the relation's remote side has a named application and at least one
      unit has published a complete record, and no complete record carries a non-decimal port
      (that ValueError is caught and reported as not ready). */
  predicate IsReadyRelation(rel: Relation)
    reads rel
    ensures IsReadyRelation(rel) <==>
      && Named(rel.remoteApp)
      && (exists u :: u in rel.units && GetRequirerUnitData(rel, u).Ok?)
      && (forall u :: u in rel.units ==> GetRequirerUnitData(rel, u) != Err(ValueError))
  {
    if !BaseIsReady(rel) then false
    else
      match UnitsData(rel)
      case Err(_) => false
      case Ok(data) =>
        UnitsDataKeys(rel);
        // `any(requirer_units_data.values())`: every record is a non-empty dict
        data != map[]
  }

  /** `is_ready()` with no relation: `any(map(self.is_ready, self.relations))`. */
  predicate IsReady(rels: seq<Relation>)
    reads rels
    ensures IsReady(rels) <==> exists i :: 0 <= i < |rels| && IsReadyRelation(rels[i])
  {
    if rels == [] then false
    else
      assert forall i :: 1 <= i < |rels| ==> rels[1..][i - 1] == rels[i];
      IsReadyRelation(rels[0]) || IsReady(rels[1..])
  }

  /** `is_unit_ready`: the unit must belong to the relation (an assertion); a missing key means
      not ready, while a non-decimal port's ValueError escapes. */
  function IsUnitReady(rel: Relation, unit: string): (r: Result<bool>)
    reads rel
    ensures unit !in rel.units ==> r == Err(AssertionError)
    ensures r == Ok(true) <==> unit in rel.units && GetRequirerUnitData(rel, unit).Ok?
    ensures r == Ok(false) <==> unit in rel.units && GetRequirerUnitData(rel, unit) == Err(KeyError)
    ensures r == Err(ValueError) <==> unit in rel.units && GetRequirerUnitData(rel, unit) == Err(ValueError)
  {
    if unit !in rel.units then Err(AssertionError)
    else
      match GetRequirerUnitData(rel, unit)
      case Ok(_) => Ok(true)
      case Err(e) => if e == KeyError then Ok(false) else Err(e)
  }

  /** Two records name different non-empty models. */
  ghost predicate ModelsConflict(data: map<string, RequirerData>) {
    exists u, v :: u in data && v in data && data[u].model != "" && data[v].model != "" && data[u].model != data[v].model
  }

  /** Every record names the same model. */
  ghost predicate ModelsAgree(data: map<string, RequirerData>) {
    forall u, v :: u in data && v in data ==> data[u].model == data[v].model
  }

  /** `validate`: every remote unit must report the same `model`; ports are not compared.
      `expected_model` is reset while it is falsy, so an empty model seen first is forgotten,
      and whether an empty model seen later conflicts depends on the iteration order. On success
      the result is always `false`. Without a relation, `relation.app` raises. */
  method Validate(rel: Relation?) returns (r: Result<bool>)
    ensures rel == null ==> r == Err(AttributeError)
    ensures rel != null && UnitsData(rel).Err? ==> r == Err(UnitsData(rel).error)
    ensures rel != null && UnitsData(rel).Ok? ==> r == Ok(false) || r == Err(MismatchError)
    ensures rel != null && UnitsData(rel).Ok? && ModelsConflict(UnitsData(rel).value) ==> r == Err(MismatchError)
    ensures rel != null && UnitsData(rel).Ok? && ModelsAgree(UnitsData(rel).value) ==> r == Ok(false)
  {
    if rel == null {
      return Err(AttributeError);
    }
    var unitsData := RequirerUnitsData(rel);
    if unitsData.Err? {
      return Err(unitsData.error);
    }
    var data := unitsData.value;
    var expected: Option<string> := None;
    var pending := data.Keys;
    while pending != {}
      invariant pending <= data.Keys
      invariant forall u :: u in data.Keys - pending && data[u].model != "" ==> expected == Some(data[u].model)
      invariant expected.Some? ==> exists u :: u in data.Keys - pending && data[u].model == expected.value
      decreases pending
    {
      var u :| u in pending;
      // the record always carries `model`
      var remoteModel := data[u].model;
      if expected.None? || expected.value == "" {
        expected := Some(remoteModel);
      } else if expected.value != remoteModel {
        return Err(MismatchError);
      }
      pending := pending - {u};
    }
    assert data.Keys - pending == data.Keys;
    return Ok(false);
  }

  /** What `publish_url` does with the stored `ingress` value, once leadership is established. */
  datatype IngressUpdate =
    | Refuse                          // corrupted application databag: logged, nothing written
    | Raise(error: Error)             // an exception escapes, nothing written
    | Write(urls: map<string, Node>)  // the new mapping written back

  /** The decision `publish_url` takes: read the mapping (`{}` when absent or empty), check it
      against INGRESS_PROVIDES_APP_SCHEMA, and add or overwrite `unit_name: {"url": url}`. */
  function PlanPublish(raw: Option<Value>, unitName: string, url: string, validation: bool): (u: IngressUpdate)
    ensures raw.None? ==> u == Write(map[unitName := UrlEntry(url)])
    ensures validation && u.Write? ==> IngressValid(Map(u.urls))
    ensures u.Write? ==>
              && ReadIngress(raw).Ok? && ReadIngress(raw).value.Map?
              && u.urls == ReadIngress(raw).value.fields[unitName := UrlEntry(url)]
    ensures validation ==>
      (u == Refuse <==> ReadIngress(raw).Ok? && !IngressValid(ReadIngress(raw).value))
    ensures validation && ReadIngress(raw).Ok? && IngressValid(ReadIngress(raw).value) ==>
      u == Write(ReadIngress(raw).value.fields[unitName := UrlEntry(url)])
    ensures ReadIngress(raw).Err? ==> u == Raise(ReadIngress(raw).error)
    ensures !validation && ReadIngress(raw).Ok? ==>
      (if ReadIngress(raw).value.Map? then u.Write? else u == Raise(TypeError))
  {
    match ReadIngress(raw)
    case Err(e) => Raise(e)
    case Ok(data) =>
      if ValidateData(validation, IngressValid(data)).Fail? then Refuse
      // without validation a scalar document reaches `data[unit_name] = ...`
      else if !data.Map? then Raise(TypeError)
      else Write(data.fields[unitName := UrlEntry(url)])
  }

  /** Adding a well-formed entry keeps a valid mapping valid, so the second validation in
      `publish_url` never fails. */
  lemma InsertKeepsIngressValid(urls: map<string, Node>, unitName: string, url: string)
    requires IngressValid(Map(urls))
    ensures IngressValid(Map(urls[unitName := UrlEntry(url)]))
  {
  }

  /** `publish_url`: leader only (checked before anything is read); a corrupted mapping is left
      as it is; otherwise the mapping gains `unit_name: {"url": url}` and keeps every other entry. */
  method PublishUrl(rel: Relation, unitName: string, url: string, isLeader: bool, validation: bool)
    returns (outcome: Outcome)
    modifies rel`localAppBag
    ensures !isLeader ==> outcome == Fail(AssertionError) && rel.localAppBag == old(rel.localAppBag)
    ensures isLeader ==>
      match PlanPublish(Get(old(rel.localAppBag), "ingress"), unitName, url, validation)
      case Refuse => outcome == Pass && rel.localAppBag == old(rel.localAppBag)
      case Raise(e) => outcome == Fail(e) && rel.localAppBag == old(rel.localAppBag)
      case Write(urls) => outcome == Pass && rel.localAppBag == old(rel.localAppBag)["ingress" := Encoded(urls)]
  {
    if !isLeader {
      return Fail(AssertionError);
    }
    var raw := Get(rel.localAppBag, "ingress");
    var read := ReadIngress(raw);
    if read.Err? {
      return Fail(read.error);
    }
    var data := read.value;
    var check := ValidateData(validation, IngressValid(data));
    if check.Fail? {
      // "unable to publish url: corrupted application databag"
      return Pass;
    }
    if !data.Map? {
      return Fail(TypeError);
    }
    var urls := data.fields[unitName := UrlEntry(url)];
    if validation {
      InsertKeepsIngressValid(data.fields, unitName, url);
    }
    // the second validation cannot fail
    assert ValidateData(validation, IngressValid(Map(urls))) == Pass;
    rel.localAppBag := rel.localAppBag["ingress" := Encoded(urls)];
    return Pass;
  }

  /** `wipe_ingress_data`: leader only; deletes the `ingress` key and nothing else. Deleting
      a key the databag does not hold is no error. */
  method WipeIngressData(rel: Relation, isLeader: bool) returns (outcome: Outcome)
    modifies rel`localAppBag
    ensures !isLeader ==> outcome == Fail(AssertionError) && rel.localAppBag == old(rel.localAppBag)
    ensures isLeader ==> outcome == Pass && rel.localAppBag == old(rel.localAppBag) - {"ingress"}
  {
    if !isLeader {
      return Fail(AssertionError);
    }
    rel.localAppBag := rel.localAppBag - {"ingress"};
    return Pass;
  }

  /** `_provider_app_data`: the leader reads its own application databag under the key `data`
      (not `ingress`, where `publish_url` writes) and returns its `ingress` mapping. Non-leaders
      and unnamed remote applications get `{}`. */
  function ProviderAppData(remoteApp: Option<string>, localAppBag: Bag, isLeader: bool, validation: bool)
    : (r: Result<map<string, Node>>)
    ensures !Named(remoteApp) || !isLeader || "data" !in localAppBag ==> r == Ok(map[])
    ensures "data" in localAppBag && !Truthy(localAppBag["data"]) ==> r == Ok(map[])
    ensures Named(remoteApp) && isLeader && "data" in localAppBag && Truthy(localAppBag["data"]) ==>
      var loaded := Load(localAppBag["data"]);
      && (loaded.Err? ==> r == Err(loaded.error))
      && (loaded.Ok? && validation ==>
            r == if ProvidesAppSchemaOk(loaded.value) then Ok(loaded.value.fields["ingress"].fields)
                 else Err(ValidationError))
    ensures validation && r.Ok? ==> forall k :: k in r.value ==> EntryOk(r.value[k])
    ensures validation && r.Err? ==> r.error == ParseError || r.error == ValidationError
  {
    if !Named(remoteApp) || !isLeader then Ok(map[])
    else
      var raw := Get(localAppBag, "data");
      if raw.None? || !Truthy(raw.value) then Ok(map[])
      else
        match Load(raw.value)
        case Err(e) => Err(e)
        case Ok(doc) =>
          if ValidateData(validation, ProvidesAppSchemaOk(doc)).Fail? then Err(ValidationError)
          // without validation: `.get` on a scalar, or a non-mapping `ingress` value
          else if !doc.Map? then Err(AttributeError)
          else if "ingress" !in doc.fields then Ok(map[])
          else if !doc.fields["ingress"].Map? then Err(TypeError)
          else Ok(doc.fields["ingress"].fields)
  }

  /** The key mismatch: nothing `publish_url` writes is ever seen by `_provider_app_data`. */
  lemma PublishedUrlsNotProxied(remoteApp: Option<string>, bag: Bag, v: Value, isLeader: bool, validation: bool)
    ensures ProviderAppData(remoteApp, bag["ingress" := v], isLeader, validation)
         == ProviderAppData(remoteApp, bag, isLeader, validation)
  {
  }

  /** `proxied_endpoints` over the relations in order: `results.update(...)` per relation, so a
      later relation's entry replaces an earlier one; the first exception escapes. */
  function Proxied(rels: seq<Relation>, isLeader: bool, validation: bool): (r: Result<map<string, Node>>)
    reads rels
    ensures validation && r.Ok? ==> forall k :: k in r.value ==> EntryOk(r.value[k])
    decreases |rels|
  {
    if rels == [] then Ok(map[])
    else
      var last := rels[|rels| - 1];
      match Proxied(rels[..|rels| - 1], isLeader, validation)
      case Err(e) => Err(e)
      case Ok(acc) =>
        match ProviderAppData(last.remoteApp, last.localAppBag, isLeader, validation)
        case Err(e) => Err(e)
        case Ok(data) => Ok(acc + data)
  }

  /** `proxied_endpoints`: the loop over `self.relations`. */
  method ProxiedEndpoints(rels: seq<Relation>, isLeader: bool, validation: bool)
    returns (r: Result<map<string, Node>>)
    ensures r == Proxied(rels, isLeader, validation)
  {
    var results: map<string, Node> := map[];
    var i := 0;
    while i < |rels|
      invariant 0 <= i <= |rels|
      invariant Proxied(rels[..i], isLeader, validation) == Ok(results)
    {
      var rel := rels[i];
      var data := ProviderAppData(rel.remoteApp, rel.localAppBag, isLeader, validation);
      assert rels[..i + 1][..i] == rels[..i];
      if data.Err? {
        ProxiedErrorSticks(rels, i + 1, isLeader, validation);
        return Err(data.error);
      }
      results := results + data.value;
      i := i + 1;
    }
    assert rels[..i] == rels;
    return Ok(results);
  }

  /** Once a relation raises, `proxied_endpoints` raises that error. */
  lemma {:induction false} ProxiedErrorSticks(rels: seq<Relation>, i: nat, isLeader: bool, validation: bool)
    requires i <= |rels| && Proxied(rels[..i], isLeader, validation).Err?
    ensures Proxied(rels, isLeader, validation) == Proxied(rels[..i], isLeader, validation)
    decreases |rels| - i
  {
    if i < |rels| {
      assert rels[..i + 1][..i] == rels[..i];
      ProxiedErrorSticks(rels, i + 1, isLeader, validation);
    } else {
      assert rels[..i] == rels;
    }
  }

  /** Each key of `proxied_endpoints` carries the entry of the LAST relation that publishes it,
      and every published key appears. */
  lemma {:induction false} ProxiedLastWins(rels: seq<Relation>, isLeader: bool, validation: bool, k: string)
    requires Proxied(rels, isLeader, validation).Ok?
    ensures forall i :: 0 <= i < |rels| ==> ProviderAppData(rels[i].remoteApp, rels[i].localAppBag, isLeader, validation).Ok?
    ensures k in Proxied(rels, isLeader, validation).value <==>
      exists i :: 0 <= i < |rels| && k in ProviderAppData(rels[i].remoteApp, rels[i].localAppBag, isLeader, validation).value
    ensures forall i :: (
              && 0 <= i < |rels|
              && k in ProviderAppData(rels[i].remoteApp, rels[i].localAppBag, isLeader, validation).value
              && (forall j :: i < j < |rels| ==> k !in ProviderAppData(rels[j].remoteApp, rels[j].localAppBag, isLeader, validation).value)
            ) ==> (
              Proxied(rels, isLeader, validation).value[k]
              == ProviderAppData(rels[i].remoteApp, rels[i].localAppBag, isLeader, validation).value[k])
    decreases |rels|
  {
    if rels != [] {
      var n := |rels| - 1;
      var prefix := rels[..n];
      ProxiedLastWins(prefix, isLeader, validation, k);
      assert forall i :: 0 <= i < n ==> prefix[i] == rels[i];
    }
  }
}

=== FILE: ipu_requirer.dfy ===
/** IngressPerUnitRequirer: a backend unit's side of the per-unit protocol. It publishes its
    coordinates, reads the URL mapping the provider publishes, and turns changes of that mapping
    into ready/revoked events by diffing against the last mapping it stored. */
module IngressPerUnitRequirer {
  import opened Common
  import opened Databag
  import opened IngressPerUnitSchema

  /** The `listen_to` argument. */
  datatype ListenTo = OnlyThisUnit | AllUnits | Both

  /** The events the requirer emits; each also carries the relation, left implicit here. */
  datatype Event =
    | Ready(unit: string, url: string)   // ingress is ready (or changed) for some unit
    | Revoked                            // ingress was revoked for some unit
    | ReadyForUnit(url: string)          // ingress is ready (or changed) for this unit
    | RevokedForUnit                     // ingress was revoked for this unit

  /** The URL mapping as `urls` reads it from the provider's `ingress` value: `{}` when absent or
      empty, otherwise each unit's `url`. */
  function UrlsOf(raw: Option<Value>, validation: bool): (r: Result<map<string, string>>)
    ensures raw.None? || !Truthy(raw.value) ==> r == Ok(map[])
    ensures r.Ok? && raw.Some? && Truthy(raw.value) ==>
      && raw.value.Encoded?
      && r.value.Keys == raw.value.doc.Keys
      && forall k :: k in r.value ==> EntryOk(raw.value.doc[k]) && raw.value.doc[k].fields["url"] == Str(r.value[k])
    ensures validation ==>
      (r.Ok? <==> ReadIngress(raw).Ok? && IngressValid(ReadIngress(raw).value))
  {
    if raw.None? || !Truthy(raw.value) then Ok(map[])
    else
      match Load(raw.value)
      case Err(e) => Err(e)
      case Ok(data) =>
        if ValidateData(validation, IngressValid(data)).Fail? then Err(ValidationError)
        // without validation a malformed document fails in the comprehension
        else if !IngressValid(data) then Err(TypeError)
        else Ok(map k | k in data.fields :: data.fields[k].fields["url"].s)
  }

  /** `removed`: units that had a URL before and have none now. */
  function Removed(prev: map<string, string>, cur: map<string, string>): set<string> {
    prev.Keys - cur.Keys
  }

  /** `changed`: units whose URL is new or different. */
  function Changed(prev: map<string, string>, cur: map<string, string>): (r: set<string>)
    ensures r <= cur.Keys
  {
    set a | a in cur && (a !in prev || cur[a] != prev[a])
  }

  /** Units present in both snapshots with the same URL. */
  function Unchanged(prev: map<string, string>, cur: map<string, string>): set<string> {
    set a | a in cur && a in prev && cur[a] == prev[a]
  }

  /** The diff partitions the units of both snapshots: every unit is exactly one of
      removed, changed or unchanged. */
  lemma DiffPartition(prev: map<string, string>, cur: map<string, string>)
    ensures Removed(prev, cur) !! Changed(prev, cur)
    ensures Removed(prev, cur) !! Unchanged(prev, cur)
    ensures Changed(prev, cur) !! Unchanged(prev, cur)
    ensures Removed(prev, cur) + Changed(prev, cur) + Unchanged(prev, cur) == prev.Keys + cur.Keys
  {
  }

  /** Diffing a snapshot against itself finds nothing. */
  lemma DiffOfSameSnapshot(m: map<string, string>)
    ensures Removed(m, m) == {} && Changed(m, m) == {}
  {
  }

  /** The per-unit events, fired for `only-this-unit` and `both`. */
  function ForUnitEvents(listenTo: ListenTo, thisUnit: string, prev: map<string, string>, cur: map<string, string>)
    : seq<Event>
  {
    if listenTo == OnlyThisUnit || listenTo == Both then
      (if thisUnit in Changed(prev, cur) then [ReadyForUnit(cur[thisUnit])] else [])
      + (if thisUnit in Removed(prev, cur) then [RevokedForUnit] else [])
    else []
  }

  /** One `ready` event for each unit of `units`. */
  function ReadySet(units: set<string>, cur: map<string, string>): set<Event>
    requires units <= cur.Keys
  {
    set u | u in units :: Ready(u, cur[u])
  }

  /** `n` revoked events. */
  function RevokedTimes(n: nat): seq<Event> {
    seq(n, _ => Revoked)
  }

  /** The broadcast events, fired for `all-units` and `both`: one `ready` per changed unit and one
      `revoked` per removed unit, in the runtime's set order. */
  function BroadcastEvents(listenTo: ListenTo, prev: map<string, string>, cur: map<string, string>)
    : multiset<Event>
  {
    if listenTo == AllUnits || listenTo == Both then
      multiset(ReadySet(Changed(prev, cur), cur)) + multiset(RevokedTimes(|Removed(prev, cur)|))
    else multiset{}
  }

  /** At most one per-unit event fires: `ready_for_unit(url)` exactly when this unit's URL changed,
      `revoked_for_unit` exactly when it disappeared, and only for `only-this-unit` and `both`. */
  lemma ForUnitEventsSpec(listenTo: ListenTo, thisUnit: string, prev: map<string, string>, cur: map<string, string>, url: string)
    ensures |ForUnitEvents(listenTo, thisUnit, prev, cur)| <= 1
    ensures ReadyForUnit(url) in ForUnitEvents(listenTo, thisUnit, prev, cur) <==>
      listenTo != AllUnits && thisUnit in cur && (thisUnit !in prev || prev[thisUnit] != cur[thisUnit]) && url == cur[thisUnit]
    ensures RevokedForUnit in ForUnitEvents(listenTo, thisUnit, prev, cur) <==>
      listenTo != AllUnits && thisUnit in prev && thisUnit !in cur
  {
  }

  lemma {:induction false} RevokedTimesCount(n: nat)
    ensures multiset(RevokedTimes(n))[Revoked] == n
    ensures forall e :: e != Revoked ==> multiset(RevokedTimes(n))[e] == 0
  {
    if n > 0 {
      RevokedTimesCount(n - 1);
      assert RevokedTimes(n) == RevokedTimes(n - 1) + [Revoked];
    }
  }

  /** Broadcast: `ready(unit, url)` fires once exactly for each changed unit with its current URL,
      and `revoked` once per removed unit, only for `all-units` and `both`. */
  lemma BroadcastEventsSpec(listenTo: ListenTo, prev: map<string, string>, cur: map<string, string>, unit: string, url: string)
    ensures BroadcastEvents(listenTo, prev, cur)[Ready(unit, url)] ==
      if listenTo != OnlyThisUnit && unit in cur && (unit !in prev || prev[unit] != cur[unit]) && url == cur[unit] then 1 else 0
    ensures BroadcastEvents(listenTo, prev, cur)[Revoked] ==
      if listenTo != OnlyThisUnit then |prev.Keys - cur.Keys| else 0
    ensures BroadcastEvents(listenTo, prev, cur)[ReadyForUnit(url)] == 0
    ensures BroadcastEvents(listenTo, prev, cur)[RevokedForUnit] == 0
  {
    var changed, removed := Changed(prev, cur), Removed(prev, cur);
    RevokedTimesCount(|removed|);
    ReadySetCount(changed, cur, Ready(unit, url));
    ReadySetCount(changed, cur, Revoked);
    ReadySetCount(changed, cur, ReadyForUnit(url));
    ReadySetCount(changed, cur, RevokedForUnit);
  }

  /** Each unit's `ready` event occurs once in the multiset of a ReadySet; nothing else occurs. */
  lemma ReadySetCount(units: set<string>, cur: map<string, string>, e: Event)
    requires units <= cur.Keys
    ensures multiset(ReadySet(units, cur))[e] == if e.Ready? && e.unit in units && e.url == cur[e.unit] then 1 else 0
  {
  }

  /** Adding one unit adds exactly its `ready` event. */
  lemma ReadySetAdd(done: set<string>, u: string, cur: map<string, string>)
    requires done <= cur.Keys && u in cur && u !in done
    ensures multiset(ReadySet(done + {u}, cur)) == multiset(ReadySet(done, cur)) + multiset{Ready(u, cur[u])}
  {
  }

  /** `for unit_name in changed: self.on.ready.emit(...)`. */
  method EmitReady(changed: set<string>, cur: map<string, string>) returns (readies: seq<Event>)
    requires changed <= cur.Keys
    ensures multiset(readies) == multiset(ReadySet(changed, cur))
  {
    readies := [];
    var pending := changed;
    while pending != {}
      invariant pending <= changed
      invariant multiset(readies) == multiset(ReadySet(changed - pending, cur))
      decreases pending
    {
      var u :| u in pending;
      ReadySetAdd(changed - pending, u, cur);
      assert changed - (pending - {u}) == (changed - pending) + {u};
      readies := readies + [Ready(u, cur[u])];
      pending := pending - {u};
    }
    assert changed - pending == changed;
  }

  /** `for unit_name in removed: self.on.revoked.emit(...)`. */
  method EmitRevoked(removed: set<string>) returns (revokes: seq<Event>)
    ensures revokes == RevokedTimes(|removed|)
  {
    revokes := [];
    var gone := removed;
    var n := 0;
    while gone != {}
      invariant n + |gone| == |removed|
      invariant revokes == RevokedTimes(n)
      decreases gone
    {
      var u :| u in gone;
      revokes := revokes + [Revoked];
      gone := gone - {u};
      n := n + 1;
    }
  }

  /** Every event after a `revoked` event is a `revoked` event too. */
  predicate RevokesLast(events: seq<Event>) {
    forall i, j :: 0 <= i < j < |events| && events[i] == Revoked ==> events[j] == Revoked
  }

  /** The broadcast half of `_handle_relation`: all `ready` events, then all `revoked` events. */
  method EmitBroadcast(listenTo: ListenTo, prev: map<string, string>, cur: map<string, string>)
    returns (events: seq<Event>)
    ensures multiset(events) == BroadcastEvents(listenTo, prev, cur)
    ensures RevokesLast(events)
  {
    events := [];
    if listenTo == AllUnits || listenTo == Both {
      var readies := EmitReady(Changed(prev, cur), cur);
      var revokes := EmitRevoked(Removed(prev, cur));
      ReadiesBeforeRevokes(readies, revokes, Changed(prev, cur), cur);
      events := readies + revokes;
    }
  }

  /** The event emission of `_handle_relation`, for a diff between `prev` and `cur`: the per-unit
      events first, then the broadcast ones. */
  method EmitEvents(listenTo: ListenTo, thisUnit: string, prev: map<string, string>, cur: map<string, string>)
    returns (events: seq<Event>)
    ensures |ForUnitEvents(listenTo, thisUnit, prev, cur)| <= |events|
    ensures events[..|ForUnitEvents(listenTo, thisUnit, prev, cur)|] == ForUnitEvents(listenTo, thisUnit, prev, cur)
    ensures multiset(events[|ForUnitEvents(listenTo, thisUnit, prev, cur)|..]) == BroadcastEvents(listenTo, prev, cur)
    ensures RevokesLast(events[|ForUnitEvents(listenTo, thisUnit, prev, cur)|..])
  {
    var forUnit := [];
    if listenTo == OnlyThisUnit || listenTo == Both {
      if thisUnit in Changed(prev, cur) {
        forUnit := forUnit + [ReadyForUnit(cur[thisUnit])];
      }
      if thisUnit in Removed(prev, cur) {
        forUnit := forUnit + [RevokedForUnit];
      }
    }
    var broadcast := EmitBroadcast(listenTo, prev, cur);
    events := forUnit + broadcast;
    assert forUnit == ForUnitEvents(listenTo, thisUnit, prev, cur);
    assert events[..|forUnit|] == forUnit && events[|forUnit|..] == broadcast;
  }

  /** In `readies + revokes` every event after a `revoked` is a `revoked`. */
  lemma ReadiesBeforeRevokes(readies: seq<Event>, revokes: seq<Event>, changed: set<string>, cur: map<string, string>)
    requires changed <= cur.Keys
    requires multiset(readies) == multiset(ReadySet(changed, cur))
    requires revokes == RevokedTimes(|revokes|)
    ensures RevokesLast(readies + revokes)
  {
    ReadySetCount(changed, cur, Revoked);
    forall i | 0 <= i < |readies|
      ensures readies[i] != Revoked
    {
      assert readies[i] in multiset(readies);
    }
  }

  /** A diff of a snapshot against itself emits nothing: re-handling an unchanged mapping is silent. */
  lemma NoEventsWithoutChange(events: seq<Event>, listenTo: ListenTo, thisUnit: string, m: map<string, string>)
    requires |ForUnitEvents(listenTo, thisUnit, m, m)| <= |events|
    requires events[..|ForUnitEvents(listenTo, thisUnit, m, m)|] == ForUnitEvents(listenTo, thisUnit, m, m)
    requires multiset(events[|ForUnitEvents(listenTo, thisUnit, m, m)|..]) == BroadcastEvents(listenTo, m, m)
    ensures events == []
  {
    DiffOfSameSnapshot(m);
    assert ReadySet({}, m) == {};
    assert |multiset(events)| == 0;
  }

  /** The requirer end of a per-unit relation, on one unit. `currentUrls` is the stored
      snapshot of the last URL mapping handled, which survives between hooks. */
  class Requirer {
    const unitName: string
    const modelName: string
    const listenTo: ListenTo
    /** The first half of `_auto_data`. */
    const autoHost: Option<string>
    /** The second half of `_auto_data`: the port, or None when it was falsy. */
    const autoPort: Option<int>
    var currentUrls: Option<map<string, string>>

    /** `__init__`: `stored` is what the stored state already held (None on first use). */
    constructor (unitName: string, modelName: string, host: Option<string>, port: Option<int>,
                 listenTo: ListenTo, stored: Option<map<string, string>>)
      ensures this.unitName == unitName && this.modelName == modelName && this.listenTo == listenTo
      ensures autoHost == host
      ensures autoPort.Some? <==> port.Some? && port.value != 0
      ensures autoPort.Some? ==> autoPort == port
      ensures currentUrls == stored
    {
      this.unitName := unitName;
      this.modelName := modelName;
      this.listenTo := listenTo;
      autoHost := host;
      autoPort := if port.Some? && port.value != 0 then port else None;
      currentUrls := stored;
    }

    /** `urls`: the mapping from unit names to URLs that the provider published; `{}` without a
        relation, while the remote application name is empty, or while nothing is published. */
    function Urls(rel: Relation?, validation: bool): (r: Result<map<string, string>>)
      reads rel
      ensures rel == null ==> r == Ok(map[])
      ensures rel != null && rel.remoteApp.None? ==> r == Err(AttributeError)
      ensures rel != null && rel.remoteApp == Some("") ==> r == Ok(map[])
      ensures rel != null && Named(rel.remoteApp) ==> r == UrlsOf(Get(rel.remoteAppBag, "ingress"), validation)
      ensures r.Ok? && r.value != map[] ==>
        && rel != null && Named(rel.remoteApp) && "ingress" in rel.remoteAppBag
        && rel.remoteAppBag["ingress"].Encoded?
        && r.value.Keys == rel.remoteAppBag["ingress"].doc.Keys
        && forall k :: k in r.value ==> rel.remoteAppBag["ingress"].doc[k].fields["url"] == Str(r.value[k])
      ensures validation && rel != null && Named(rel.remoteApp) ==>
        (r.Ok? <==> ReadIngress(Get(rel.remoteAppBag, "ingress")).Ok? && IngressValid(ReadIngress(Get(rel.remoteAppBag, "ingress")).value))
    {
      if rel == null then Ok(map[])
      else if rel.remoteApp.None? then Err(AttributeError)
      else if rel.remoteApp.value == "" then Ok(map[])
      else UrlsOf(Get(rel.remoteAppBag, "ingress"), validation)
    }

    /** `url`: this unit's URL, None while the mapping is empty or lacks this unit. */
    function Url(rel: Relation?, validation: bool): (r: Result<Option<string>>)
      reads rel
      ensures r.Err? <==> Urls(rel, validation).Err?
      ensures r.Ok? ==> (r.value.Some? <==> unitName in Urls(rel, validation).value)
      ensures r.Ok? && r.value.Some? ==> r.value.value == Urls(rel, validation).value[unitName]
    {
      match Urls(rel, validation)
      case Err(e) => Err(e)
      case Ok(urls) =>
        if urls == map[] then Ok(None)
        else if unitName in urls then Ok(Some(urls[unitName])) else Ok(None)
    }

    /** `is_ready()`: a named relation whose published mapping gives this unit a non-empty URL. */
    function IsReady(rel: Relation?, validation: bool): (r: Result<bool>)
      reads rel
      ensures r == Ok(true) <==>
        && rel != null && Named(rel.remoteApp)
        && UrlsOf(Get(rel.remoteAppBag, "ingress"), validation).Ok?
        && unitName in UrlsOf(Get(rel.remoteAppBag, "ingress"), validation).value
        && UrlsOf(Get(rel.remoteAppBag, "ingress"), validation).value[unitName] != ""
      ensures r.Err? ==> rel != null && Named(rel.remoteApp) && UrlsOf(Get(rel.remoteAppBag, "ingress"), validation) == Err(r.error)
      ensures rel != null && Named(rel.remoteApp) && UrlsOf(Get(rel.remoteAppBag, "ingress"), validation).Err? ==>
        r == Err(UrlsOf(Get(rel.remoteAppBag, "ingress"), validation).error)
    {
      if rel == null || !Named(rel.remoteApp) then Ok(false)
      else
        match Url(rel, validation)
        case Err(e) => Err(e)
        case Ok(None) => Ok(false)
        case Ok(Some(u)) => Ok(u != "")
    }

    /** `provide_ingress_requirements`: writes this unit's four coordinates into its own databag,
        the host defaulting to the FQDN and the port written as `str(port)`. */
    method ProvideIngressRequirements(rel: Relation?, host: Option<string>, port: Option<int>,
                                      fqdn: string, validation: bool)
      returns (outcome: Outcome)
      modifies rel
      ensures rel == null ==> outcome == Fail(AttributeError)
      ensures rel != null ==>
        && outcome == Pass
        && rel.localUnitBag == old(rel.localUnitBag) + Coordinates(modelName, unitName, HostOr(host, fqdn), PortText(port))
        && rel.remoteUnitBags == old(rel.remoteUnitBags)
        && rel.remoteAppBag == old(rel.remoteAppBag)
        && rel.localAppBag == old(rel.localAppBag)
    {
      var data := Coordinates(modelName, unitName, HostOr(host, fqdn), PortText(port));
      var check := ValidateData(validation, UnitSchemaOk(data));
      assert check == Pass;
      if rel == null {
        return Fail(AttributeError);
      }
      rel.localUnitBag := rel.localUnitBag + data;
      outcome := Pass;
    }

    /** `_publish_auto_data`: `_auto_data` is a pair and so always truthy; the coordinates are
        published every time, with the port "None" when it was falsy. */
    method PublishAutoData(rel: Relation?, fqdn: string, validation: bool) returns (outcome: Outcome)
      modifies rel
      ensures rel == null ==> outcome == Fail(AttributeError)
      ensures rel != null ==>
        && outcome == Pass
        && rel.localUnitBag == old(rel.localUnitBag) + Coordinates(modelName, unitName, HostOr(autoHost, fqdn), PortText(autoPort))
        && rel.remoteUnitBags == old(rel.remoteUnitBags)
        && rel.remoteAppBag == old(rel.remoteAppBag)
        && rel.localAppBag == old(rel.localAppBag)
    {
      outcome := ProvideIngressRequirements(rel, autoHost, autoPort, fqdn, validation);
    }

    /** `_handle_relation`: diffs the published mapping against the stored snapshot, emits the
        events `listenTo` selects, stores the new mapping and republishes the coordinates.
        When reading the mapping raises, nothing is emitted, stored or written. */
    method HandleRelation(rel: Relation?, fqdn: string, validation: bool)
      returns (events: seq<Event>, outcome: Outcome)
      modifies this, rel
      ensures old(Urls(rel, validation)).Err? ==>
        && events == [] && outcome == Fail(old(Urls(rel, validation)).error)
        && currentUrls == old(currentUrls)
        && (rel != null ==> unchanged(rel))
      ensures old(Urls(rel, validation)).Ok? ==>
        var prev, cur := old(currentUrls).GetOr(map[]), old(Urls(rel, validation)).value;
        && currentUrls == Some(cur)
        && |ForUnitEvents(listenTo, unitName, prev, cur)| <= |events|
        && events[..|ForUnitEvents(listenTo, unitName, prev, cur)|] == ForUnitEvents(listenTo, unitName, prev, cur)
        && multiset(events[|ForUnitEvents(listenTo, unitName, prev, cur)|..]) == BroadcastEvents(listenTo, prev, cur)
        && RevokesLast(events[|ForUnitEvents(listenTo, unitName, prev, cur)|..])
        && (prev == cur ==> events == [])
        && (rel == null ==> outcome == Fail(AttributeError))
        && (rel != null ==>
              && outcome == Pass
              && rel.localUnitBag == old(rel.localUnitBag) + Coordinates(modelName, unitName, HostOr(autoHost, fqdn), PortText(autoPort))
              && rel.remoteUnitBags == old(rel.remoteUnitBags)
              && rel.remoteAppBag == old(rel.remoteAppBag)
              && rel.localAppBag == old(rel.localAppBag))
    {
      var current := Urls(rel, validation);
      if current.Err? {
        return [], Fail(current.error);
      }
      var prev := currentUrls.GetOr(map[]);
      events := EmitEvents(listenTo, unitName, prev, current.value);
      if prev == current.value {
        NoEventsWithoutChange(events, listenTo, unitName, prev);
      }
      currentUrls := Some(current.value);
      outcome := PublishAutoData(rel, fqdn, validation);
    }
  }
}

=== FILE: ipu_schema.dfy ===
/** The wire shapes of the per-unit ingress protocol and their validators. */
module IngressPerUnitSchema {
  import opened Common
  import opened Decimal
  import opened Databag

  /** RequirerData: what one requirer unit publishes, with the port already cast to an integer. */
  datatype RequirerData = RequirerData(model: string, name: string, host: string, port: int)

  /** The keys INGRESS_REQUIRES_UNIT_SCHEMA requires of a requirer unit's databag. */
  const RequiredKeys: set<string> := {"model", "name", "host", "port"}

  /** INGRESS_REQUIRES_UNIT_SCHEMA: all four keys present, each a string.
      The values of a databag are strings, so only presence can fail. */
  predicate UnitSchemaOk(data: UnitBag) {
    forall k :: k in RequiredKeys ==> k in data
  }

  /** One entry of the provider's URL mapping: an object with a string `url`. */
  predicate EntryOk(n: Node) {
    n.Map? && "url" in n.fields && n.fields["url"].Str?
  }

  /** `{"ingress": data}` against INGRESS_PROVIDES_APP_SCHEMA: a mapping whose every entry is a URL record. */
  predicate IngressValid(data: Node) {
    data.Map? && forall k :: k in data.fields ==> EntryOk(data.fields[k])
  }

  /** A whole document against INGRESS_PROVIDES_APP_SCHEMA: a valid `ingress` mapping and
      an optional string `_supported_versions`. */
  predicate ProvidesAppSchemaOk(doc: Node) {
    && doc.Map?
    && "ingress" in doc.fields
    && IngressValid(doc.fields["ingress"])
    && ("_supported_versions" in doc.fields ==> doc.fields["_supported_versions"].Str?)
  }

  /** `_validate_data`: with DO_VALIDATION off every document passes. */
  function ValidateData(validation: bool, valid: bool): (o: Outcome)
    ensures o.Fail? <==> validation && !valid
    ensures o.Fail? ==> o.error == ValidationError
  {
    if validation && !valid then Fail(ValidationError) else Pass
  }

  /** The record the provider publishes for one unit: `{"url": url}`. */
  function UrlEntry(url: string): (n: Node)
    ensures EntryOk(n) && n.fields["url"] == Str(url)
  {
    Map(map["url" := Str(url)])
  }

  /** `yaml.safe_load(raw) if raw else {}` for the stored `ingress` value: nothing published
      reads as the empty mapping, a published mapping as itself, and only malformed text fails. */
  function ReadIngress(raw: Option<Value>): (r: Result<Node>)
    ensures raw.None? || !Truthy(raw.value) ==> r == Ok(Map(map[]))
    ensures r.Err? <==> raw.Some? && raw.value.Malformed?
    ensures r.Err? ==> r.error == ParseError
    ensures raw.Some? && raw.value.Encoded? ==> r == Ok(Map(raw.value.doc))
    ensures raw.Some? && raw.value.Plain? && raw.value.s != "" ==> r == Ok(Str(raw.value.s))
    ensures r.Ok? ==> (r.value.Map? <==> raw.None? || !Truthy(raw.value) || raw.value.Encoded?)
    ensures raw.Some? && Truthy(raw.value) ==> r == Load(raw.value)
  {
    if raw.None? || !Truthy(raw.value) then Ok(Map(map[])) else Load(raw.value)
  }

  /** `str(port)`: the auto-data port is `None` when the configured port was falsy. */
  function PortText(port: Option<int>): (s: string)
    ensures port.Some? ==> ParseInt(s) == Some(port.value)
    ensures port.None? ==> ParseInt(s) == None
  {
    match port
    case Some(p) => ParseShowRoundTrip(p); ShowInt(p)
    case None => NoneIsNotDecimal(); "None"
  }

  /** The four coordinates a requirer unit writes into its databag. */
  function Coordinates(model: string, name: string, host: string, portText: string): (data: UnitBag)
    ensures UnitSchemaOk(data) && data.Keys == RequiredKeys
  {
    map["model" := model, "name" := name, "host" := host, "port" := portText]
  }
}
